=== FILE: README.md ===
# QR menu: read path, item routes and browser helpers in Dafny

This project models the logic of a multi-tenant QR-code restaurant menu. Each
restaurant is addressed by a URL slug, and its categories, subcategories and
items are stored in MySQL tables with per-language translation tables. The
model has three parts:

- **The server read path.** `GET /restaurant/:slug` (routes/restaurants.js)
  and `GET /api/menu/:slug` (routes/customerMenu.js) are pure functions from
  the request and the tables to a response. A table is a `seq` of records in
  storage order, and a query is a filter, a per-row translation lookup and a
  sort. A `LEFT JOIN … ON key = ? … COALESCE(translation, base)` is one row's
  first-match lookup in the translation table.
- **The write-side routes of routes/menuItems.js.** These are the
  required-field check (with JavaScript truthiness) and `photo_url` of item
  creation, the time-window listing, and the translation upsert
  (`ON DUPLICATE KEY UPDATE`).
- **The browser script public/app.js.** This covers:
  - URL parsing into slug and page;
  - language normalisation;
  - `escapeHtml`;
  - `group`;
  - the item-to-section partition of `renderMenu`;
  - `t`;
  - the rejection of error payloads.

Failures are inputs: each handler takes a `Faults` value saying which
awaited call rejects. The clock reading of the listing is a `TimeOfDay`
parameter.

Modules, one per file:

| module | file | covers |
|---|---|---|
| `Common` | common.dfy | nullable values, JavaScript truthiness, `q \|\| d`, ASCII lower-casing, the four languages |
| `Seqs` | seqs.dfy | `Map`, `Filter`, first-match lookup, unique keys, permutation facts |
| `Sorting` | sorting.dfy | lexicographic sort keys, insertion sort, `WHERE … ORDER BY` |
| `Schema` | schema.dfy | the table rows, the declared unique keys, the language enum |
| `RestaurantMenu` | restaurant_menu.dfy | routes/restaurants.js |
| `CustomerMenu` | customer_menu.dfy | routes/customerMenu.js |
| `MenuItems` | menu_items.dfy | routes/menuItems.js |
| `HtmlEscape` | html_escape.dfy | `escapeHtml` |
| `ClientRoute` | client_route.dfy | path, slug, language and first fetch of public/app.js |
| `ClientRender` | client_render.dfy | `group`, `renderMenu` sections, `setBrand`, payload handling, `t` |
| `HomeLinks` | home_links.dfy | the menu links `renderHome` writes |

Two SQL details need care:

- **`ORDER BY`.** `ORDER BY x.display_order ASC, x.id ASC` on a nullable
  column puts NULL first, as MySQL does. This is modelled by the key
  `(rank, display_order, id)`, where rank is 0 for NULL. The item query
  orders by `COALESCE(display_order, 0)` instead.
- **Unique keys.** The fallback laws are stated under the unique
  `(id, language_code)` keys that routes/migrate.js declares (lines 83, 92
  and 101). Without those keys a `LEFT JOIN` can multiply rows, and the
  model would then show only the first match.

## Model

| member | source | states |
|---|---|---|
| `Common.QueryOr` | routes/customerMenu.js:13 | a missing or empty query value gives the default, any other value is kept |
| `Common.NonEmpty` | routes/customerMenu.js:14-15 | `q \|\| null`: present exactly when the value is a non-empty string, and then unchanged |
| `Seqs.LookupBy` | routes/restaurants.js:26-33 | `WHERE key = ? LIMIT 1`: a found row is in the table and has the key; nothing is found exactly when no row has the key |
| `Seqs.LookupUnique` | routes/migrate.js:83 | under a unique key the lookup of a row's key finds that very row |
| `Sorting.NullsSortFirst` | routes/restaurants.js:46 | on a nullable column every NULL sorts before every value, values sort numerically, and the id breaks ties |
| `Sorting.SortBy` | routes/restaurants.js:46 | the result is sorted by the key and is a permutation of the input |
| `Sorting.SelectOrdered` | routes/restaurants.js:45-46 | `WHERE … ORDER BY …` is sorted, a permutation of the matching rows, and holds every matching row and no other |
| `RestaurantMenu.RequestLang` | routes/restaurants.js:20 | a missing or empty `lang` gives `en`, otherwise the lower-cased value, with no check against the supported set |
| `RestaurantMenu.ResolveCategory` | routes/restaurants.js:39-44 | id and display order are the base row's; the name is the translation for the language when one exists (under the unique key), the base name when none does |
| `RestaurantMenu.CategoriesOf` | routes/restaurants.js:36-49 | only the restaurant's categories, every one of them, each translated, sorted by (display_order with NULL first, id), a permutation of the translated matching rows |
| `RestaurantMenu.ResolveSubcategory` | routes/restaurants.js:56-63 | subcategory rows keep id, category and order; the name falls back to the base name with no translation |
| `RestaurantMenu.SubcategoriesOf` | routes/restaurants.js:54-68 | only and all of the restaurant's subcategories, translated, sorted by (display_order with NULL first, id), a permutation |
| `Schema.TranslatedTexts` | routes/restaurants.js:81-82 | without a translation row for the item and language the base name and description; with one (under the unique key) its name, and its description unless NULL, then the base description |
| `RestaurantMenu.ResolveItem` | routes/restaurants.js:77-91 | name and description fall back independently, so a translation with a NULL description keeps the base description; `image_url` is `image_url`, else `image`; the other columns are the base row's |
| `RestaurantMenu.OrderedItems` | routes/restaurants.js:89-93 | only and all of the restaurant's items, sorted by (COALESCE(display_order, 0), id), a permutation of the matching rows |
| `RestaurantMenu.ItemsOf` | routes/restaurants.js:75-97 | item rows are the ordered rows translated position by position, and a permutation of the translated matching rows |
| `RestaurantMenu.GetRestaurant` | routes/restaurants.js:18-108 | 404 with the slug exactly when the slug matches no restaurant and nothing failed before; 500 exactly when the connection, the restaurant query, or (for a known slug) the category or item query fails; on success the restaurant has the requested slug and categories, items and subcategories are the three queries, subcategories `[]` when their query fails; a 500's `detail` is the text of the first failure in the order connection, restaurant, category, item query, so a failing subcategory query is never reported |
| `RestaurantMenu.NoTranslationRows` | routes/migrate.js:80 | the language enum means a language outside the four matches no translation row |
| `RestaurantMenu.UnsupportedLangCategoryNames` | routes/migrate.js:87-94 | with an unsupported `lang` every category keeps its base name |
| `RestaurantMenu.UnsupportedLangSubcategoryNames` | routes/migrate.js:96-103 | with an unsupported `lang` every subcategory keeps its base name |
| `RestaurantMenu.UnsupportedLangItemTexts` | routes/migrate.js:77-85 | with an unsupported `lang` every item keeps its base name and description |
| `RestaurantMenu.GetRestaurantAsWired` | routes/restaurants.js:5 | with the `getPool` import as written every request is a server error |
| `RestaurantMenu.AsWiredNeverServes` | routes/restaurants.js:23 | as wired, every slug, known or not, answers 500 `server_error` with the TypeError's text |
| `RestaurantMenu.ConnectedHandlerServesKnownSlugs` | routes/restaurants.js:26-33 | with a working connection a known slug answers 200 with that restaurant and an unknown one 404 |
| `CustomerMenu.ErrorText` | routes/customerMenu.js:80 | the error text is the MySQL message when there is a non-empty one and `Database error` otherwise, so never empty |
| `CustomerMenu.CategoryFilter` | routes/customerMenu.js:55 | the category filter applies exactly when the value is non-empty and not `All` |
| `CustomerMenu.CategoryNameOf` | routes/customerMenu.js:45-46 | NULL when no `categories` row has the item's category id; otherwise the (nullable) name of a matching row, and under the id key the name of the one matching row |
| `CustomerMenu.SubcategoryNameOf` | routes/customerMenu.js:47-48 | NULL when the item has no `sub_category_id` or no `sub_categories` row has it; otherwise the (nullable) name of a matching row, and under the id key that of the one matching row |
| `CustomerMenu.EntryOf` | routes/customerMenu.js:32-41 | name and description use the translated value when present and the base value otherwise; `photo_url` is the `image` column |
| `CustomerMenu.SelectedRows` | routes/customerMenu.js:49-66 | the rows are sorted by id descending, a permutation of the rows passing the restaurant and name filters, and hold all of them; `Selected` (routes/customerMenu.js:49-64) is that WHERE condition |
| `CustomerMenu.SelectedRowsStrictlyDescending` | routes/customerMenu.js:66 | with item ids unique the ids strictly decrease |
| `CustomerMenu.GetCustomerMenu` | routes/customerMenu.js:11-83 | an unknown slug gives `success:false` with status 200, not 404; a query failure gives 500 with `ErrorText` of the failing query, the slug lookup's when it failed, else the menu query's; otherwise the menu is the selected rows of the slug's restaurant, with `lang` defaulting to `en` and empty filters ignored |
| `CustomerMenu.GetCustomerMenuAsWired` | routes/customerMenu.js:19-22 | with `await` on the callback connection of config/db.js, every request fails before the slug is looked up |
| `CustomerMenu.AsWiredMenuNeverServes` | routes/customerMenu.js:76-81 | as wired, every request answers 500 with `success:false` and `Database error` |
| `CustomerMenu.ConnectedMenuServesKnownSlugs` | routes/customerMenu.js:19-26 | with a promise connection and no failing query, status 200 always, the menu exactly for a known slug, `Restaurant not found` exactly for an unknown one |
| `CustomerMenu.EntriesSelected` | routes/customerMenu.js:49-64 | every entry is an item of the restaurant and carries the filtered category and subcategory names |
| `CustomerMenu.MenuRespectsFilters` | routes/customerMenu.js:49-64 | a successful menu lists only the slug's restaurant's items; a category other than `All` and a subcategory each fix the entries' names |
| `CustomerMenu.MenuNewestFirst` | routes/customerMenu.js:66 | a successful menu is in strictly descending id order |
| `MenuItems.PhotoUrl` | routes/menuItems.js:17 | present exactly when a file was uploaded, and then `/uploads/` followed by the stored file name |
| `MenuItems.CreateItem` | routes/menuItems.js:10-32 | with `Common.Truthy` as JavaScript's `!x` test (routes/menuItems.js:13), 400 exactly when name, price, category_id, restoran_id or allergens is falsy, so a price of 0 or `""` is refused; 500 exactly when the insert fails after validation; otherwise the inserted row carries all nine body values, each in its own column, and the photo url |
| `MenuItems.InvertedWindowNeverListed` | routes/menuItems.js:50-51 | an item whose `available_to` is before its `available_from` is listed at no time of day |
| `MenuItems.ListedOf` | routes/menuItems.js:42-45 | name and description use the translation when present, else the base values; other columns are the base row's |
| `MenuItems.ListedRows` | routes/menuItems.js:40-52 | every listed row is an item of the restaurant available now, and every such item is listed, and with item ids unique none is listed twice; `AvailableAt` (routes/menuItems.js:50-51) is the window condition these clauses use |
| `MenuItems.ListedSound` | routes/menuItems.js:49-51 | each listed row comes from an item of the restaurant whose window contains the current time |
| `MenuItems.ListedComplete` | routes/menuItems.js:49-51 | each item of the restaurant whose window contains the current time is listed |
| `MenuItems.ListItems` | routes/menuItems.js:35-61 | 500 exactly on a query error; otherwise the listing is sound and complete for the restaurant and the current time, lists no item twice when item ids are unique, and uses `lang` defaulting to `en` |
| `MenuItems.Upsert` | routes/menuItems.js:71-75 | the new row is in the table afterwards; every other row was there before; rows with other keys are kept; at most one row is added |
| `MenuItems.UpsertKeepsKeyUnique` | routes/migrate.js:83 | the upsert keeps the (menu_item_id, language_code) key unique |
| `MenuItems.SaveTranslation` | routes/menuItems.js:64-84 | 400 exactly when item id, language or name is missing or falsy, the test `TranslationComplete` (routes/menuItems.js:67) negates; 500 exactly when the database then fails; otherwise the upserted table |
| `MenuItems.UpsertResolves` | routes/menuItems.js:72-74 | afterwards the row's (item, language) pair has exactly one translation, the new one, and every other pair resolves as before |
| `MenuItems.LastWriteWins` | routes/menuItems.js:74 | of two saves to the same (item, language), the later one is what the pair resolves to |
| `HtmlEscape.EscapeHtml` | public/app.js:206 | null gives `""`; otherwise the output has none of `< > " '`, every `&` starts one of the five references, and decoding them gives the input back |
| `HtmlEscape.EscapeStringChar` | public/app.js:206 | on one character the five chained replacements give that character's reference, or the character itself |
| `HtmlEscape.EscapeIsPerChar` | public/app.js:206 | the chain of `replaceAll` calls as written, `EscapeString` built from `ReplaceAll` (public/app.js:206), equals escaping each character on its own, because `&` is replaced first |
| `HtmlEscape.EscapeIdentityOnPlainText` | public/app.js:206 | a string without the five characters is returned unchanged |
| `HtmlEscape.EscapeEachNoMarkup` | public/app.js:206 | escaped text contains no `<`, `>`, `"` or `'` |
| `HtmlEscape.EscapeEachAmpersands` | public/app.js:206 | every `&` of escaped text begins `&amp;`, `&lt;`, `&gt;`, `&quot;` or `&#39;` |
| `HtmlEscape.RoundTrip` | public/app.js:206 | decoding the five references in escaped text gives the original string |
| `ClientRoute.Split` | public/app.js:3 | `split('/')` gives at least one piece and no piece contains `/` |
| `ClientRoute.SplitJoin` | public/app.js:3 | joining the pieces with `/` gives the path back |
| `ClientRoute.SlugIsFirstSegment` | public/app.js:3-5 | `Slug` (public/app.js:5), the first of the `Segments` (public/app.js:3), is absent exactly when the path is all slashes; otherwise it is the non-empty, slash-free run after the leading slashes, ending at a slash or the end |
| `ClientRoute.NormaliseLang` | public/app.js:7-9 | always one of `tr`, `en`, `es`, `fr`; the lower-cased query value when that is one of them, `en` otherwise, including when it is missing |
| `ClientRoute.ServerKeepsClientLang` | public/app.js:35 | the language the script sends comes back unchanged from the server's own lower-casing and default |
| `ClientRoute.Start` | public/app.js:26-46 | the error view and no fetch exactly when the path has no slug; the menu fetch exactly when there is a slug and the second segment is `menu`; otherwise the restaurant fetch; both URLs carry the slug and the normalised language |
| `ClientRoute.MenuPageHasSlug` | public/app.js:4-5 | a menu page, as `IsMenuPage` (public/app.js:4) tests it, always has a slug and always loads the menu |
| `ClientRender.Bucket` | public/app.js:207 | a bucket holds only elements with its key, drawn from the input without repetition beyond the input's own |
| `ClientRender.Group` | public/app.js:207 | `group`'s `reduce` is `GroupFrom` (public/app.js:207); a bucket exists exactly for each key that occurs; each bucket holds exactly the elements with that key, in input order, and is never empty |
| `ClientRender.BucketMultiplicity` | public/app.js:207 | an element occurs in the bucket of its key as often as in the input and in no other bucket |
| `ClientRender.BucketConcat` | public/app.js:207 | bucketing preserves input order: the bucket of a concatenation is the concatenation of the buckets |
| `ClientRender.GroupPartitions` | public/app.js:207 | every element lands, with full multiplicity, in exactly the bucket keyed by its own key, so the buckets form a permutation of the input |
| `ClientRender.Sections` | public/app.js:114-132 | one section per category in order; without subcategories it lists exactly the category's items in input order; with subcategories each part lists the category's items filed under that subcategory |
| `ClientRender.ShownIff` | public/app.js:121-132 | an item is shown in a category's section exactly when it belongs to the category and the category has no subcategories or the item's `subcategory_id` is one of them, so null or unmatched ones are hidden |
| `ClientRender.OrphanedCategoryHidden` | public/app.js:114-115 | an item whose category is not listed appears in no section |
| `ClientRender.SetBrand` | public/app.js:56-60 | the title is the name when non-empty, else `QR Menu`; the logo is shown exactly when `logo_url` is non-empty |
| `ClientRender.Show` | public/app.js:37-51 | a payload with a truthy `error`, or without a restaurant, is rejected and never rendered; otherwise the header is `setBrand`'s, the menu page renders exactly the `Sections` of the payload's categories and items, and the home page no sections |
| `ClientRender.ShownOnMenuPage` | public/app.js:114-132 | with `showError` defined, the menu page has one section per category, and each shows exactly the items `ShownIff` names |
| `ClientRender.CompletedSections` | public/app.js:138-164 | the completed sections are a prefix of the sections; none has a card with an image; when the prefix is shorter, the next section has one |
| `ClientRender.MenuAsWritten` | public/app.js:31-53 | as the script stands the menu page completes exactly the sections of `Sections` before the first one that loads an image: each completed one equals its counterpart and loads none, and the next one, when there is one, loads an image |
| `ClientRender.ImageStopsMenu` | public/app.js:163 | as the script stands, an item with an image that section `i` should show leaves sections `i` onwards uncompleted and appears in no completed section |
| `ClientRender.DictionariesAgree` | public/app.js:200-203 | every language's dictionary defines the same seven keys, all non-empty |
| `ClientRender.KnownKeyTranslated` | public/app.js:199-205 | `T` (public/app.js:199-205): for a supported language a known key gives that language's text, so the `\|\| en` fallback is never taken |
| `ClientRender.UnknownKeyEchoed` | public/app.js:204 | an unknown key is returned as itself |
| `HomeLinks.MenuLinkSegments` | public/app.js:79 | the home page's menu link path has exactly the slug and `menu` as segments |
| `HomeLinks.FollowMenuLink` | public/app.js:76-79 | following a home menu link loads that restaurant's menu in the language its `lang` query normalises to |
| `HomeLinks.HomeMenuLinkAsWritten` | public/app.js:79 | the link's `lang` query is the text `undefined` |
| `HomeLinks.HomeLinkLosesLanguage` | public/app.js:76-79 | as written, a home page shown in `tr`, `es` or `fr` links to the English menu |
| `HomeLinks.HomeLinkKeepsLanguage` | public/app.js:76-79 | with the page's own language in the link, `HomeMenuLink` (public/app.js:79 corrected), the menu opens in that language |

## Findings

| source | as written | input that shows it | evidently intended | confidence | as-written member | corrected member |
|---|---|---|---|---|---|---|
| public/app.js:76-79 | the home page's menu links use `lang=${data.lang}`, but the body from routes/restaurants.js:99-104 has no `lang`, so the query is `lang=undefined` | `/cafe?lang=tr`, then the "view menu" link: the menu page normalises `undefined` to `en` | the links carry the home page's own language | high, not executed | `HomeLinks.HomeLinkLosesLanguage` | `HomeLinks.HomeLinkKeepsLanguage` |
| public/app.js:53 | `.catch(showError)` names a function public/app.js never defines; evaluating the argument throws a `ReferenceError` that ends the script before `const io` (line 212) is initialised, and `observeLazy` (line 221) then throws on the first card with an image | a menu whose first category's section shows an item with a non-empty `image_url`: no category section is completed | the script runs to its end, so every category gets its section | medium, not executed: assumes no other page script defines a global `showError` | `ClientRender.ImageStopsMenu` | `ClientRender.ShownOnMenuPage` |
| routes/customerMenu.js:19 | `await db.query(...)` on the connection config/db.js:26 exports, which is mysql2's callback interface; awaiting its query object throws an error without `sqlMessage` | any request, e.g. a slug that is in `restaurants` | a promise connection, so known slugs get their menu and unknown ones `Restaurant not found` | medium, not executed: follows mysql2's callback query object, whose `then` throws | `CustomerMenu.AsWiredMenuNeverServes` | `CustomerMenu.ConnectedMenuServesKnownSlugs` |
| routes/restaurants.js:5 | `const { getPool } = require("../config/db")`, but config/db.js:26 exports a bare connection, so `getPool` is `undefined` and `await getPool()` throws inside the `try` | any request, e.g. a slug that is in `restaurants` | a working connection, so known slugs are served and unknown ones answer 404 | high, not executed | `RestaurantMenu.AsWiredNeverServes` | `RestaurantMenu.ConnectedHandlerServesKnownSlugs` |

Apart from the as-written members, the model keeps a working connection
and a defined `showError`. `GetRestaurant` takes the connection failure as
the `pool` field of its `Faults` input, and `GetCustomerMenu` takes the
failed slug lookup as the `restaurantQuery` field of its own.

## Left out

- I/O and asynchrony are not modelled. This covers Express, the `mysql2`
  driver and connection, `fetch`, `await` and the callbacks. Each failure is
  an explicit fault input, and the error detail is the text the caught error
  would print.
- The MySQL engine is not modelled. `LEFT JOIN … COALESCE` is a first-match
  lookup, `WHERE` is a filter and `ORDER BY` is a sort. These are not
  modelled:
  - collation: MySQL's default collation compares case- and
    accent-insensitively and ignores trailing spaces, while the model
    compares exactly. This matters for names, slugs and `language_code`
    (see the lines below);
  - duplicated rows from a `LEFT JOIN` on a non-unique key;
  - the row order of queries without `ORDER BY`, which is taken as table order.
- `CustomerMenu.EntryOf` and `MenuItems.ListedOf`: match `language_code`
  exactly. routes/customerMenu.js:13 and routes/menuItems.js:54 pass `lang`
  without lower-casing it, so in MySQL `?lang=TR` selects the `tr`
  translation, while the model falls back to the base text.
- `RestaurantMenu.UnsupportedLangCategoryNames`,
  `RestaurantMenu.UnsupportedLangSubcategoryNames` and
  `RestaurantMenu.UnsupportedLangItemTexts` hold under exact comparison
  only. `?lang=én` stays `én` after lower-casing, and an accent-insensitive
  collation compares it equal to `en`.
- `MenuItems.SaveTranslation`: with `language_code` `TR`, MySQL stores the
  enum value `tr` and overwrites the existing `tr` row, while `Upsert` adds
  a separate `TR` row.
- `MenuItems.ListItems`: takes `restaurant_id` as an integer.
  routes/menuItems.js:36 passes the path string, which MySQL converts to a
  number when comparing with the INT column, so `5x` lists restaurant 5.
- `Common.Lower`: lower-cases only the ASCII letters A-Z, while
  `toLowerCase` also maps other Unicode upper-case letters.
- Query values are strings or absent. A repeated parameter, which Express
  turns into an array, is not modelled.
- `MenuItems.SaveTranslation`: its body fields are typed. A numeric
  `menu_item_id` is falsy only at 0, and other JavaScript values in those
  fields are not modelled. A `language_code` outside the enum is left to
  the database failure input.
- `MenuItems.ListItems`: takes the clock as a time of day in seconds. The
  `HH:MM:SS` string comparison of routes/menuItems.js:38 agrees with it for
  well-formed times, and the server's time zone is not modelled.
- routes/customerMenu.js reads columns that routes/migrate.js does not
  create: `translated_name`, `translated_description`, `original_item_id`, the tables `categories` and
  `sub_categories`, and `sub_category_id`. They are modelled as separate
  legacy tables in `Schema` and are not reconciled with the migrated schema.
- JavaScript objects used as maps are not modelled. `group`'s buckets and
  `t`'s dictionaries would misbehave on keys such as `constructor`. The keys
  here are numeric ids and a fixed set of interface keys, so this does not
  arise.
- `ClientRender.Show`: assumes `showError`, the `.catch` handler at
  public/app.js:42 and 53, is a global defined outside public/app.js, so
  that the script runs to its end. As written it is not defined; see
  Findings and `ClientRender.MenuAsWritten`. A rejected payload is
  modelled as "rejected, never rendered".
- Not modelled from public/app.js:
  - DOM construction and `innerHTML`;
  - the language switch buttons;
  - the modal;
  - `IntersectionObserver` lazy loading;
  - `scrollTo`;
  - `formatPrice`, which calls `Intl.NumberFormat`.
  These are presentation or foreign calls.
- `renderMenu` reads subcategories nested in each category
  (`c.subcategories`). routes/restaurants.js returns them as a flat list.
  The model takes the nested shape as input and does not convert between
  the two.
- `RestaurantMenu.GetRestaurant`: passes `currency` through as stored. No
  default currency is applied in the handler. The `'EUR'` default is a
  column default in routes/migrate.js:65.
- These files are not part of this model:
  - config/db.js and src/server.js (configuration and route wiring);
  - routes/users.js (session login);
  - routes/notifications.js and routes/menuCategories.js (single
    pass-through queries);
  - routes/migrate.js, whose DDL is used only as schema facts;
  - routes/qrcode.js and utils/generateQR.js (a third-party encoder).
- src/server.js mounts neither routes/restaurants.js nor
  routes/customerMenu.js, and mounts routes/menuItems.js under `/menu`. The
  handlers are modelled as written, independent of their mount points.

=== FILE: client_render.dfy ===
/** What the browser script (public/app.js) does with a fetched payload:
    `group` buckets the items by category, `renderMenu` partitions each
    category's bucket into sections, a payload with an `error` is never
    rendered, and `t` looks up the interface strings. */
module ClientRender {
  import opened Common
  import opened Seqs

  // ---- `group(arr, getKey)` ----

  /** The elements of `arr` whose key is `k`, in input order: the bucket
      `group` should build for `k`. */
  function Bucket<T, K(==)>(arr: seq<T>, key: T -> K, k: K): (b: seq<T>)
    ensures |b| <= |arr|
    ensures forall j :: 0 <= j < |b| ==> key(b[j]) == k
    ensures multiset(b) <= multiset(arr)
  {
    if arr == [] then []
    else
      assert arr == [arr[0]] + arr[1..];
      (if key(arr[0]) == k then [arr[0]] else []) + Bucket(arr[1..], key, k)
  }

  /** The `forEach` loop of `group`, from a partly filled map `m`:
      `if (!m[k]) m[k] = []; m[k].push(x)`. */
  function GroupFrom<T, K(==)>(m: map<K, seq<T>>, arr: seq<T>, key: T -> K): map<K, seq<T>>
    decreases |arr|
  {
    if arr == [] then m
    else
      var k := key(arr[0]);
      var b := if k in m then m[k] else [];
      GroupFrom(m[k := b + [arr[0]]], arr[1..], key)
  }

  /** Some element of `arr` has key `k`. */
  predicate Occurs<T, K(==)>(arr: seq<T>, key: T -> K, k: K) {
    exists i :: 0 <= i < |arr| && key(arr[i]) == k
  }

  lemma OccursCons<T, K>(arr: seq<T>, key: T -> K, k: K)
    requires arr != []
    ensures Occurs(arr, key, k) <==> key(arr[0]) == k || Occurs(arr[1..], key, k)
  {
    if Occurs(arr, key, k) {
      var i :| 0 <= i < |arr| && key(arr[i]) == k;
      if i > 0 {
        assert key(arr[1..][i - 1]) == k;
      }
    }
    if Occurs(arr[1..], key, k) {
      var i :| 0 <= i < |arr[1..]| && key(arr[1..][i]) == k;
      assert key(arr[i + 1]) == k;
    }
  }

  /** One step of the loop: the element at the front is pushed onto its bucket. */
  function Pushed<T, K(==)>(m: map<K, seq<T>>, x: T, key: T -> K): map<K, seq<T>> {
    var k := key(x);
    m[k := (if k in m then m[k] else []) + [x]]
  }

  lemma GroupFromUnfold<T, K>(m: map<K, seq<T>>, arr: seq<T>, key: T -> K)
    requires arr != []
    ensures GroupFrom(m, arr, key) == GroupFrom(Pushed(m, arr[0], key), arr[1..], key)
  {
  }

  /** A key is in the finished map exactly when it was there already or occurs. */
  lemma {:induction false} GroupFromKey<T, K>(m: map<K, seq<T>>, arr: seq<T>, key: T -> K, k: K)
    ensures k in GroupFrom(m, arr, key) <==> k in m || Occurs(arr, key, k)
    decreases |arr|
  {
    if arr != [] {
      GroupFromUnfold(m, arr, key);
      GroupFromKey(Pushed(m, arr[0], key), arr[1..], key, k);
      OccursCons(arr, key, k);
    }
  }

  /** A bucket of the finished map: what it held, then the new elements
      with its key. */
  lemma {:induction false} GroupFromValue<T, K>(m: map<K, seq<T>>, arr: seq<T>, key: T -> K, k: K)
    requires k in GroupFrom(m, arr, key)
    ensures GroupFrom(m, arr, key)[k] == (if k in m then m[k] else []) + Bucket(arr, key, k)
    decreases |arr|
  {
    if arr != [] {
      var x := arr[0];
      var m' := Pushed(m, x, key);
      var before := if k in m then m[k] else [];
      var tail := Bucket(arr[1..], key, k);
      GroupFromUnfold(m, arr, key);
      GroupFromValue(m', arr[1..], key, k);
      assert GroupFrom(m, arr, key)[k] == (if k in m' then m'[k] else []) + tail;
      if key(x) == k {
        assert Bucket(arr, key, k) == [x] + tail;
        assert m'[k] == before + [x];
        assert (before + [x]) + tail == before + ([x] + tail);
      } else {
        assert Bucket(arr, key, k) == tail;
        assert (k in m' <==> k in m) && (k in m ==> m'[k] == m[k]);
      }
    }
  }

  lemma {:induction false} BucketNonEmpty<T, K>(arr: seq<T>, key: T -> K, i: int)
    requires 0 <= i < |arr|
    ensures Bucket(arr, key, key(arr[i])) != []
    decreases |arr|
  {
    if i > 0 && key(arr[0]) != key(arr[i]) {
      assert arr[1..][i - 1] == arr[i];
      BucketNonEmpty(arr[1..], key, i - 1);
    }
  }

  /** `group(arr, getKey)`: one bucket for each key that occurs, holding
      exactly the elements with that key in input order, and never empty. */
  function Group<T, K(!new)>(arr: seq<T>, key: T -> K): (m: map<K, seq<T>>)
    ensures forall k :: k in m <==> exists i :: 0 <= i < |arr| && key(arr[i]) == k
    ensures forall k :: k in m ==> m[k] == Bucket(arr, key, k)
    ensures forall k :: k in m ==> m[k] != []
  {
    var m := GroupFrom(map[], arr, key);
    forall k
      ensures k in m <==> Occurs(arr, key, k)
    {
      GroupFromKey(map[], arr, key, k);
    }
    forall k | k in m
      ensures m[k] == Bucket(arr, key, k) && m[k] != []
    {
      GroupFromValue(map[], arr, key, k);
      var i :| 0 <= i < |arr| && key(arr[i]) == k;
      BucketNonEmpty(arr, key, i);
    }
    m
  }

  /** Each element of the input sits in the bucket of its own key as often
      as in the input, and in no other bucket. */
  lemma {:induction false} BucketMultiplicity<T, K>(arr: seq<T>, key: T -> K, k: K, x: T)
    ensures multiset(Bucket(arr, key, k))[x] == if key(x) == k then multiset(arr)[x] else 0
    decreases |arr|
  {
    if arr != [] {
      BucketMultiplicity(arr[1..], key, k, x);
      assert arr == [arr[0]] + arr[1..];
      assert multiset(arr) == multiset([arr[0]]) + multiset(arr[1..]);
    }
  }

  /** Bucketing keeps input order: splitting the input splits every bucket. */
  lemma {:induction false} BucketConcat<T, K>(a: seq<T>, b: seq<T>, key: T -> K, k: K)
    ensures Bucket(a + b, key, k) == Bucket(a, key, k) + Bucket(b, key, k)
    decreases |a|
  {
    if a == [] {
      assert a + b == b;
    } else {
      var ab := a + b;
      assert ab[0] == a[0] && ab[1..] == a[1..] + b;
      BucketConcat(a[1..], b, key, k);
      var ba, bb := Bucket(a[1..], key, k), Bucket(b, key, k);
      if key(a[0]) == k {
        assert Bucket(ab, key, k) == [a[0]] + (ba + bb);
        assert Bucket(a, key, k) == [a[0]] + ba;
        assert [a[0]] + (ba + bb) == ([a[0]] + ba) + bb;
      } else {
        assert Bucket(ab, key, k) == [] + (ba + bb);
        assert Bucket(a, key, k) == [] + ba;
      }
    }
  }

  /** `group` partitions its input: every element is in the bucket of its
      key with its full multiplicity and in no other bucket, so the buckets
      together are a permutation of the input. */
  lemma GroupPartitions<T, K(!new)>(arr: seq<T>, key: T -> K, x: T)
    requires x in arr
    ensures key(x) in Group(arr, key)
    ensures multiset(Group(arr, key)[key(x)])[x] == multiset(arr)[x]
    ensures forall k :: k in Group(arr, key) && k != key(x) ==> x !in Group(arr, key)[k]
  {
    var m := Group(arr, key);
    var i :| 0 <= i < |arr| && arr[i] == x;
    BucketMultiplicity(arr, key, key(x), x);
    forall k | k in m && k != key(x)
      ensures x !in m[k]
    {
      BucketMultiplicity(arr, key, k, x);
    }
  }

  // ---- the sections of `renderMenu` ----

  datatype SubcategoryView = SubcategoryView(id: int, name: string)

  /** A category as `renderMenu` expects it, with its subcategories nested. */
  datatype CategoryView = CategoryView(id: int, name: string, subcategories: Option<seq<SubcategoryView>>)

  datatype ItemView = ItemView(
    id: int, categoryId: int, subcategoryId: Option<int>, name: string, imageUrl: Option<string>)

  /** A `<div>` under a subcategory heading and the items listed in it. */
  datatype Part = Part(subcategory: SubcategoryView, items: seq<ItemView>)

  /** The `<section>` of one category: a flat list, or one part per subcategory. */
  datatype Section =
    | Flat(category: CategoryView, items: seq<ItemView>)
    | Divided(category: CategoryView, parts: seq<Part>)

  function CategoryOf(x: ItemView): int { x.categoryId }

  /** `c.subcategories && c.subcategories.length`. */
  predicate HasSubcategories(c: CategoryView) {
    c.subcategories.Some? && |c.subcategories.value| > 0
  }

  /** `byCat[c.id] || []`. */
  function ListOf(byCat: map<int, seq<ItemView>>, id: int): seq<ItemView> {
    if id in byCat then byCat[id] else []
  }

  /** `it => it.subcategory_id === sc.id`: a null subcategory matches nothing. */
  function InSubcategory(sid: int): ItemView -> bool {
    (x: ItemView) => x.subcategoryId == Some(sid)
  }

  function Parts(list: seq<ItemView>, subs: seq<SubcategoryView>): (r: seq<Part>)
    ensures |r| == |subs|
    ensures forall j :: 0 <= j < |subs| ==> r[j].subcategory == subs[j]
    ensures forall j :: 0 <= j < |subs| ==> r[j].items == Filter(InSubcategory(subs[j].id), list)
  {
    if subs == [] then [] else [Part(subs[0], Filter(InSubcategory(subs[0].id), list))] + Parts(list, subs[1..])
  }

  function SectionOf(byCat: map<int, seq<ItemView>>, c: CategoryView): Section {
    var list := ListOf(byCat, c.id);
    if HasSubcategories(c) then Divided(c, Parts(list, c.subcategories.value)) else Flat(c, list)
  }

  function SectionMaker(byCat: map<int, seq<ItemView>>): CategoryView -> Section {
    (c: CategoryView) => SectionOf(byCat, c)
  }

  /** The items of category `cid` filed under subcategory `sid`, in input order. */
  function Under(items: seq<ItemView>, cid: int, sid: int): seq<ItemView> {
    if items == [] then []
    else
      (if items[0].categoryId == cid && items[0].subcategoryId == Some(sid) then [items[0]] else [])
      + Under(items[1..], cid, sid)
  }

  lemma {:induction false} UnderIsFilteredBucket(items: seq<ItemView>, cid: int, sid: int)
    ensures Filter(InSubcategory(sid), Bucket(items, CategoryOf, cid)) == Under(items, cid, sid)
    decreases |items|
  {
    if items != [] {
      var x := items[0];
      var p := InSubcategory(sid);
      UnderIsFilteredBucket(items[1..], cid, sid);
      var rest := Bucket(items[1..], CategoryOf, cid);
      var tail := Under(items[1..], cid, sid);
      assert Filter(p, rest) == tail;
      if x.categoryId == cid {
        var b := [x] + rest;
        assert Bucket(items, CategoryOf, cid) == b;
        assert b[0] == x && b[1..] == rest;
        if p(x) {
          assert Filter(p, b) == [x] + Filter(p, rest);
          assert Under(items, cid, sid) == [x] + tail;
        } else {
          assert Filter(p, b) == Filter(p, rest);
          assert Under(items, cid, sid) == tail;
        }
      } else {
        assert Bucket(items, CategoryOf, cid) == rest;
        assert Under(items, cid, sid) == tail;
      }
    }
  }

  lemma BucketAbsent(items: seq<ItemView>, cid: int)
    requires forall i :: 0 <= i < |items| ==> items[i].categoryId != cid
    ensures Bucket(items, CategoryOf, cid) == []
    decreases |items|
  {
    if items != [] {
      BucketAbsent(items[1..], cid);
    }
  }

  /** `(byCat[c.id] || [])` is the category's bucket, also when it has none. */
  lemma ListIsBucket(items: seq<ItemView>, cid: int)
    ensures ListOf(Group(items, CategoryOf), cid) == Bucket(items, CategoryOf, cid)
  {
    if cid !in Group(items, CategoryOf) {
      BucketAbsent(items, cid);
    }
  }

  /** The sections `renderMenu` appends, one per category in order. A category
      without subcategories lists exactly its own items in input order; one
      with subcategories lists, under each, its items filed there. */
  function Sections(cats: seq<CategoryView>, items: seq<ItemView>): (r: seq<Section>)
    ensures |r| == |cats|
    ensures forall i :: 0 <= i < |cats| ==> r[i].category == cats[i]
    ensures forall i :: 0 <= i < |cats| && !HasSubcategories(cats[i]) ==>
      r[i].Flat? && r[i].items == Bucket(items, CategoryOf, cats[i].id)
    ensures forall i :: 0 <= i < |cats| && HasSubcategories(cats[i]) ==>
      r[i].Divided? && |r[i].parts| == |cats[i].subcategories.value| &&
      forall j :: 0 <= j < |r[i].parts| ==>
        r[i].parts[j].subcategory == cats[i].subcategories.value[j] &&
        r[i].parts[j].items == Under(items, cats[i].id, cats[i].subcategories.value[j].id)
  {
    var r := Map(SectionMaker(Group(items, CategoryOf)), cats);
    forall i | 0 <= i < |cats|
      ensures SectionFacts(items, cats[i], r[i])
    {
      SectionOfFacts(items, cats[i]);
    }
    r
  }

  /** What `Sections` promises about the section of one category `c`. */
  predicate SectionFacts(items: seq<ItemView>, c: CategoryView, s: Section) {
    && s.category == c
    && (!HasSubcategories(c) ==> s.Flat? && s.items == Bucket(items, CategoryOf, c.id))
    && (HasSubcategories(c) ==>
          s.Divided? && |s.parts| == |c.subcategories.value| &&
          forall j :: 0 <= j < |s.parts| ==>
            s.parts[j].subcategory == c.subcategories.value[j] &&
            s.parts[j].items == Under(items, c.id, c.subcategories.value[j].id))
  }

  lemma SectionOfFacts(items: seq<ItemView>, c: CategoryView)
    ensures SectionFacts(items, c, SectionOf(Group(items, CategoryOf), c))
  {
    ListIsBucket(items, c.id);
    if HasSubcategories(c) {
      var subs := c.subcategories.value;
      forall j | 0 <= j < |subs|
        ensures Filter(InSubcategory(subs[j].id), Bucket(items, CategoryOf, c.id)) == Under(items, c.id, subs[j].id)
      {
        UnderIsFilteredBucket(items, c.id, subs[j].id);
      }
    }
  }

  /** Whether a section lists an item anywhere. */
  predicate Shows(s: Section, x: ItemView) {
    match s
    case Flat(_, items) => x in items
    case Divided(_, parts) => exists j :: 0 <= j < |parts| && x in parts[j].items
  }

  lemma {:induction false} BucketMembers(items: seq<ItemView>, cid: int, x: ItemView)
    ensures x in Bucket(items, CategoryOf, cid) <==> x in items && x.categoryId == cid
  {
    BucketMultiplicity(items, CategoryOf, cid, x);
  }

  lemma {:induction false} UnderMembers(items: seq<ItemView>, cid: int, sid: int, x: ItemView)
    ensures x in Under(items, cid, sid) <==> x in items && x.categoryId == cid && x.subcategoryId == Some(sid)
    decreases |items|
  {
    if items != [] {
      UnderMembers(items[1..], cid, sid, x);
      assert items == [items[0]] + items[1..];
    }
  }

  /** An item is shown in its category's section exactly when the category
      has no subcategories or the item is filed under one of them: items of
      a divided category with a null or unknown subcategory are hidden. */
  lemma ShownIff(cats: seq<CategoryView>, items: seq<ItemView>, i: int, x: ItemView)
    requires 0 <= i < |cats|
    ensures Shows(Sections(cats, items)[i], x) <==>
      x in items && x.categoryId == cats[i].id &&
      (!HasSubcategories(cats[i]) ||
       exists j :: 0 <= j < |cats[i].subcategories.value| && x.subcategoryId == Some(cats[i].subcategories.value[j].id))
  {
    var c := cats[i];
    var s := Sections(cats, items)[i];
    if HasSubcategories(c) {
      var subs := c.subcategories.value;
      forall j | 0 <= j < |subs|
        ensures x in s.parts[j].items <==> x in items && x.categoryId == c.id && x.subcategoryId == Some(subs[j].id)
      {
        UnderMembers(items, c.id, subs[j].id, x);
      }
    } else {
      BucketMembers(items, c.id, x);
    }
  }

  /** An item whose category is not among the listed categories appears in
      no section at all. */
  lemma OrphanedCategoryHidden(cats: seq<CategoryView>, items: seq<ItemView>, x: ItemView)
    requires forall i :: 0 <= i < |cats| ==> cats[i].id != x.categoryId
    ensures forall i :: 0 <= i < |cats| ==> !Shows(Sections(cats, items)[i], x)
  {
    forall i | 0 <= i < |cats|
      ensures !Shows(Sections(cats, items)[i], x)
    {
      ShownIff(cats, items, i, x);
    }
  }

  // ---- the fetched payload ----

  /** The `restaurant` object of a payload, as far as `setBrand` reads it. */
  datatype BrandView = BrandView(name: Option<string>, logoUrl: Option<string>)

  /** A fetched JSON body: `error`, `restaurant`, `categories`, `items`. */
  datatype Payload = Payload(
    error: JsValue,
    restaurant: Option<BrandView>,
    categories: Option<seq<CategoryView>>,
    items: Option<seq<ItemView>>)

  /** The header `setBrand` fills in: a title and, when there is one, a logo. */
  datatype Brand = Brand(title: string, logo: Option<string>)

  /** What the page ends up showing. `Rejected` is the `.catch` path. */
  datatype View = Rejected | Home(brand: Brand) | Menu(brand: Brand, sections: seq<Section>)

  const FallbackTitle: string := "QR Menu"

  /** `setBrand(r)`: `r.name || 'QR Menu'`, and the logo only when `logo_url` is truthy. */
  function SetBrand(r: BrandView): (b: Brand)
    ensures b.title != ""
    ensures r.name.Some? && r.name.value != "" ==> b.title == r.name.value
    ensures r.name.None? || r.name.value == "" ==> b.title == FallbackTitle
    ensures b.logo.Some? <==> r.logoUrl.Some? && r.logoUrl.value != ""
    ensures b.logo.Some? ==> b.logo == r.logoUrl
  {
    Brand(QueryOr(r.name, FallbackTitle), NonEmpty(r.logoUrl))
  }

  function OrEmpty<T>(s: Option<seq<T>>): seq<T> {
    if s.Some? then s.value else []
  }

  /** The `.then` handler of `loadRestaurant` (`menuPage` false) or
      `loadMenu` (`menuPage` true): a truthy `error` is thrown, and so is a
      missing `restaurant`, on which `setBrand` fails. This is the page with
      `showError` defined, so that the script runs to its end; see
      `MenuAsWritten` for the script as it stands. */
  function Show(menuPage: bool, p: Payload): (v: View)
    ensures Truthy(p.error) ==> v.Rejected?
    ensures v.Rejected? <==> Truthy(p.error) || p.restaurant.None?
    ensures !v.Rejected? ==> v.brand == SetBrand(p.restaurant.value)
    ensures v.Menu? <==> !v.Rejected? && menuPage
    ensures v.Menu? ==> v.sections == Sections(OrEmpty(p.categories), OrEmpty(p.items))
  {
    if Truthy(p.error) then Rejected
    else match p.restaurant
      case None => Rejected
      case Some(r) =>
        var brand := SetBrand(r);
        if menuPage then Menu(brand, Sections(OrEmpty(p.categories), OrEmpty(p.items)))
        else Home(brand)
  }

  /** With `showError` defined, the menu page has one section per category,
      and each shows exactly the items `ShownIff` names. */
  lemma ShownOnMenuPage(p: Payload, i: int, x: ItemView)
    requires Show(true, p).Menu?
    requires 0 <= i < |OrEmpty(p.categories)|
    ensures |Show(true, p).sections| == |OrEmpty(p.categories)|
    ensures var cats := OrEmpty(p.categories);
      Shows(Show(true, p).sections[i], x) <==>
        x in OrEmpty(p.items) && x.categoryId == cats[i].id &&
        (!HasSubcategories(cats[i]) ||
         exists j :: 0 <= j < |cats[i].subcategories.value| && x.subcategoryId == Some(cats[i].subcategories.value[j].id))
  {
    ShownIff(OrEmpty(p.categories), OrEmpty(p.items), i, x);
  }

  // ---- as written: `showError` is not defined ----

  /** `it.image_url ? `<img ...>` : ''`: the card has an image exactly when
      `image_url` is truthy, and `renderItems` then calls `observeLazy`. */
  predicate HasImage(x: ItemView) {
    x.imageUrl.Some? && x.imageUrl.value != ""
  }

  /** Some card of the section has an image. */
  predicate LoadsImage(s: Section) {
    match s
    case Flat(_, items) => exists k :: 0 <= k < |items| && HasImage(items[k])
    case Divided(_, parts) =>
      exists j, k :: 0 <= j < |parts| && 0 <= k < |parts[j].items| && HasImage(parts[j].items[k])
  }

  /** A section that shows an item with an image loads an image. */
  lemma ShownImageLoads(s: Section, x: ItemView)
    requires Shows(s, x) && HasImage(x)
    ensures LoadsImage(s)
  {
    match s
    case Flat(_, items) =>
      var k :| 0 <= k < |items| && items[k] == x;
    case Divided(_, parts) =>
      var j :| 0 <= j < |parts| && x in parts[j].items;
      var k :| 0 <= k < |parts[j].items| && parts[j].items[k] == x;
  }

  /** The sections the menu page completes as the script stands. Evaluating
      the argument of `.catch(showError)` throws a `ReferenceError`, which
      ends the script before `const io` is initialised; the first
      `observeLazy(img)` then throws in the fetch's `.then` handler. So the
      sections before the first one with an image are complete, and
      rendering stops inside that one. */
  function CompletedSections(ss: seq<Section>): (r: seq<Section>)
    ensures |r| <= |ss| && r == ss[..|r|]
    ensures forall i :: 0 <= i < |r| ==> !LoadsImage(r[i])
    ensures |r| < |ss| ==> LoadsImage(ss[|r|])
  {
    if ss == [] then []
    else if LoadsImage(ss[0]) then []
    else
      var rest := CompletedSections(ss[1..]);
      assert [ss[0]] + rest == ss[..|rest| + 1];
      [ss[0]] + rest
  }

  /** The complete sections of the menu page as the script stands. */
  function MenuAsWritten(cats: seq<CategoryView>, items: seq<ItemView>): (r: seq<Section>)
    ensures |r| <= |cats|
    ensures forall i :: 0 <= i < |r| ==> r[i] == Sections(cats, items)[i]
    ensures forall i :: 0 <= i < |r| ==> !LoadsImage(r[i])
    ensures |r| < |cats| ==> LoadsImage(Sections(cats, items)[|r|])
  {
    CompletedSections(Sections(cats, items))
  }

  /** As the script stands, an item with an image that its category's
      section should show cuts the menu short: neither that section nor any
      later one is completed, and the item appears in no completed section. */
  lemma ImageStopsMenu(cats: seq<CategoryView>, items: seq<ItemView>, i: int, x: ItemView)
    requires 0 <= i < |cats|
    requires HasImage(x) && Shows(Sections(cats, items)[i], x)
    ensures |MenuAsWritten(cats, items)| <= i < |cats|
    ensures forall j :: 0 <= j < |MenuAsWritten(cats, items)| ==> !Shows(MenuAsWritten(cats, items)[j], x)
  {
    var r := MenuAsWritten(cats, items);
    ShownImageLoads(Sections(cats, items)[i], x);
    forall j | 0 <= j < |r|
      ensures !Shows(r[j], x)
    {
      if Shows(r[j], x) {
        ShownImageLoads(r[j], x);
      }
    }
  }

  // ---- `t(key)` ----

  /** The interface strings every dictionary defines. */
  const UiKeys: set<string> := {"categories", "view_menu", "address", "phone", "hours", "new", "allergens"}

  function English(): map<string, string> {
    map["categories" := "Categories", "view_menu" := "View Menu", "address" := "Address",
        "phone" := "Phone", "hours" := "Opening Hours", "new" := "New", "allergens" := "Allergens"]
  }

  /** `{ tr, en, es, fr }[lang]`. */
  function Dictionary(lang: string): Option<map<string, string>> {
    if lang == "tr" then
      Some(map["categories" := "Kategoriler", "view_menu" := "Menüyü Gör", "address" := "Adres",
               "phone" := "Telefon", "hours" := "Çalışma Saatleri", "new" := "Yeni", "allergens" := "Alerjenler"])
    else if lang == "en" then Some(English())
    else if lang == "es" then
      Some(map["categories" := "Categorías", "view_menu" := "Ver menú", "address" := "Dirección",
               "phone" := "Teléfono", "hours" := "Horario", "new" := "Nuevo", "allergens" := "Alérgenos"])
    else if lang == "fr" then
      Some(map["categories" := "Catégories", "view_menu" := "Voir le menu", "address" := "Adresse",
               "phone" := "Téléphone", "hours" := "Horaires", "new" := "Nouveau", "allergens" := "Allergènes"])
    else None
  }

  /** `t(key)`: `dict[key] || key` with `dict = { tr, en, es, fr }[lang] || en`. */
  function T(lang: string, key: string): string {
    var dict := if Dictionary(lang).Some? then Dictionary(lang).value else English();
    if key in dict && dict[key] != "" then dict[key] else key
  }

  /** Every language defines the same keys, all with non-empty text. */
  lemma DictionariesAgree(lang: string)
    requires Supported(lang)
    ensures Dictionary(lang).Some?
    ensures Dictionary(lang).value.Keys == UiKeys
    ensures forall k :: k in UiKeys ==> Dictionary(lang).value[k] != ""
  {
  }

  /** A known key is looked up in the page's own language: the `|| en`
      fallback is never taken for a supported language. */
  lemma KnownKeyTranslated(lang: string, key: string)
    requires Supported(lang)
    requires key in UiKeys
    ensures T(lang, key) == Dictionary(lang).value[key]
  {
    DictionariesAgree(lang);
  }

  /** An unknown key is shown as itself. */
  lemma UnknownKeyEchoed(lang: string, key: string)
    requires key !in UiKeys
    ensures T(lang, key) == key
  {
    if Supported(lang) {
      DictionariesAgree(lang);
    }
  }
}

=== FILE: client_route.dfy ===
/** How the browser script (public/app.js) reads its own URL: the first path
    segment is the restaurant slug, a second segment `menu` selects the menu
    page, and the `lang` query value is normalised to one of the four menu
    languages before either page is fetched. */
module ClientRoute {
  import opened Common
  import opened Seqs
  import RestaurantMenu

  // ---- `location.pathname.split('/').filter(Boolean)` ----

  /** `s.split('/')`: the pieces between separators, empty ones included. */
  function Split(s: string): (r: seq<string>)
    ensures |r| >= 1
    ensures forall i :: 0 <= i < |r| ==> '/' !in r[i]
  {
    if s == [] then [""]
    else
      var rest := Split(s[1..]);
      if s[0] == '/' then [""] + rest
      else [[s[0]] + rest[0]] + rest[1..]
  }

  /** `parts.join('/')`, the inverse of `Split`. */
  function Join(parts: seq<string>): string
    requires |parts| >= 1
  {
    if |parts| == 1 then parts[0] else parts[0] + "/" + Join(parts[1..])
  }

  /** Splitting loses nothing: joining the pieces back gives the path. */
  lemma {:induction false} SplitJoin(s: string)
    ensures Join(Split(s)) == s
    decreases |s|
  {
    if s != [] {
      var rest := Split(s[1..]);
      SplitJoin(s[1..]);
      if s[0] == '/' {
        assert Split(s)[1..] == rest;
        assert s == "/" + s[1..];
      } else {
        var r := Split(s);
        assert r[0] == [s[0]] + rest[0];
        if |rest| == 1 {
          assert s == [s[0]] + s[1..];
        } else {
          assert r[1..] == rest[1..];
          assert s == [s[0]] + s[1..];
        }
      }
    }
  }

  /** `Boolean` on a piece: the empty string is dropped. */
  predicate IsSegment(p: string) {
    p != ""
  }

  function Segments(path: string): seq<string> {
    Filter(IsSegment, Split(path))
  }

  /** `path[0] || null`. */
  function Slug(path: string): Option<string> {
    var segs := Segments(path);
    if |segs| >= 1 then Some(segs[0]) else None
  }

  /** `path.length >= 2 && path[1] === 'menu'`. */
  predicate IsMenuPage(path: string) {
    var segs := Segments(path);
    |segs| >= 2 && segs[1] == "menu"
  }

  /** The first piece of a split runs up to the first `/` or the end. */
  lemma {:induction false} SplitHead(s: string)
    ensures |Split(s)[0]| <= |s|
    ensures Split(s)[0] == s[..|Split(s)[0]|]
    ensures |Split(s)[0]| == |s| || s[|Split(s)[0]|] == '/'
    decreases |s|
  {
    if s != [] && s[0] != '/' {
      SplitHead(s[1..]);
    }
  }

  /** `x` is the run of `path` starting at `k` after nothing but slashes,
      and it ends at a slash or at the end of the path. */
  predicate SegmentAt(path: string, k: int, x: string) {
    && 0 <= k && k + |x| <= |path|
    && (forall i :: 0 <= i < k ==> path[i] == '/')
    && path[k..k + |x|] == x
    && (k + |x| == |path| || path[k + |x|] == '/')
  }

  predicate AllSlashes(path: string) {
    forall i :: 0 <= i < |path| ==> path[i] == '/'
  }

  /** A leading slash contributes only an empty piece, which is dropped. */
  lemma SegmentsAfterSlash(path: string)
    requires path != [] && path[0] == '/'
    ensures Segments(path) == Segments(path[1..])
  {
    var rest := Split(path[1..]);
    assert Split(path) == [""] + rest;
    assert ([""] + rest)[1..] == rest;
  }

  /** A path opening with a non-slash has that run as its slug. */
  lemma SlugOfPlainStart(path: string)
    requires path != [] && path[0] != '/'
    ensures Slug(path).Some?
    ensures Slug(path).value != "" && '/' !in Slug(path).value
    ensures SegmentAt(path, 0, Slug(path).value)
  {
    var r := Split(path);
    SplitHead(path);
    assert r[0] == [path[0]] + Split(path[1..])[0];
    assert IsSegment(r[0]);
    assert r == [r[0]] + r[1..];
    assert Segments(path) == [r[0]] + Filter(IsSegment, r[1..]);
    assert path[0..0 + |r[0]|] == r[0];
  }

  lemma SegmentAtShift(path: string, k: int, x: string)
    requires path != [] && path[0] == '/'
    requires SegmentAt(path[1..], k, x)
    ensures SegmentAt(path, k + 1, x)
  {
    assert path[k + 1..k + 1 + |x|] == path[1..][k..k + |x|];
    forall i | 0 <= i < k + 1
      ensures path[i] == '/'
    {
      if i > 0 {
        assert path[i] == path[1..][i - 1];
      }
    }
  }

  /** The slug, stated on the characters of the path: there is none exactly
      when the path is all slashes, and otherwise it is the non-empty,
      slash-free run that follows the leading slashes. */
  lemma {:induction false} SlugIsFirstSegment(path: string)
    ensures Slug(path).None? <==> AllSlashes(path)
    ensures Slug(path).Some? ==>
      Slug(path).value != "" && '/' !in Slug(path).value &&
      exists k :: SegmentAt(path, k, Slug(path).value)
    decreases |path|
  {
    if path == [] {
    } else if path[0] == '/' {
      SegmentsAfterSlash(path);
      SlugIsFirstSegment(path[1..]);
      if Slug(path).Some? {
        var k :| SegmentAt(path[1..], k, Slug(path).value);
        SegmentAtShift(path, k, Slug(path).value);
      } else {
        forall i | 0 <= i < |path|
          ensures path[i] == '/'
        {
          if i > 0 {
            assert path[i] == path[1..][i - 1];
          }
        }
      }
    } else {
      SlugOfPlainStart(path);
    }
  }

  // ---- `?lang=` ----

  /** `allowedLangs.includes(c) ? c : 'en'` with
      `c = (qs.get('lang') || 'en').toLowerCase()`. */
  function NormaliseLang(q: Option<string>): (lang: string)
    ensures Supported(lang)
    ensures q.Some? && Supported(Lower(q.value)) ==> lang == Lower(q.value)
    ensures q.None? || !Supported(Lower(q.value)) ==> lang == DefaultLang
  {
    var c := Lower(QueryOr(q, DefaultLang));
    if Supported(c) then c else DefaultLang
  }

  /** The client only ever asks the server for the language it chose: the
      server's own lower-casing and default leave a normalised value alone. */
  lemma ServerKeepsClientLang(q: Option<string>)
    ensures RestaurantMenu.RequestLang(Some(NormaliseLang(q))) == NormaliseLang(q)
  {
    var l := NormaliseLang(q);
    assert l == "tr" || l == "en" || l == "es" || l == "fr";
    assert Lower(l) == l;
  }

  // ---- what the page does first ----

  /** The script's first step: the error view, or one of the two fetches. */
  datatype Boot = InvalidUrl | LoadRestaurant(url: string) | LoadMenu(url: string)

  function Start(path: string, langQuery: Option<string>): (b: Boot)
    ensures b.InvalidUrl? <==> AllSlashes(path)
    ensures b.LoadMenu? <==> Slug(path).Some? && IsMenuPage(path)
    ensures !b.InvalidUrl? ==> Slug(path).Some?
    ensures b.LoadRestaurant? ==> Slug(path).Some? && b.url == "/restaurant/" + Slug(path).value + "?lang=" + NormaliseLang(langQuery)
    ensures b.LoadMenu? ==> Slug(path).Some? && b.url == "/menu/" + Slug(path).value + "?lang=" + NormaliseLang(langQuery)
  {
    SlugIsFirstSegment(path);
    var lang := NormaliseLang(langQuery);
    match Slug(path)
    case None => InvalidUrl
    case Some(slug) =>
      if IsMenuPage(path) then LoadMenu("/menu/" + slug + "?lang=" + lang)
      else LoadRestaurant("/restaurant/" + slug + "?lang=" + lang)
  }

  /** A menu page always has a slug: the second segment needs a first. */
  lemma MenuPageHasSlug(path: string)
    requires IsMenuPage(path)
    ensures Slug(path).Some?
    ensures Start(path, None).LoadMenu?
  {
  }
}

=== FILE: common.dfy ===
/** Values shared by every part of the model: nullable columns, JavaScript
    truthiness, query-string defaults and the closed set of menu languages. */
module Common {

  /** A nullable column or an absent request field. */
  datatype Option<T> = None | Some(value: T)

  /** SQL `COALESCE(a, b)` of a nullable column over a fallback. */
  function Coalesce<T>(a: Option<T>, b: T): (r: T)
    ensures a.Some? ==> r == a.value
    ensures a.None? ==> r == b
  {
    match a
    case Some(v) => v
    case None => b
  }

  /** SQL `COALESCE(a, b)` where both sides are nullable. */
  function CoalesceOpt<T>(a: Option<T>, b: Option<T>): (r: Option<T>)
    ensures a.Some? ==> r == a
    ensures a.None? ==> r == b
  {
    if a.Some? then a else b
  }

  /** A JavaScript value, kept only as fine as truthiness needs. `Object`
      stands for every object and array, all of which are truthy. */
  datatype JsValue = Undefined | Null | Bool(b: bool) | Num(x: real) | NaN | Str(s: string) | Object

  /** JavaScript's `!!v`: false exactly for undefined, null, false, 0, NaN and "". */
  predicate Truthy(v: JsValue) {
    match v
    case Undefined => false
    case Null => false
    case Bool(b) => b
    case Num(x) => x != 0.0
    case NaN => false
    case Str(s) => s != ""
    case Object => true
  }

  /** `q || d` for a string query parameter: a missing or empty value gives `d`. */
  function QueryOr(q: Option<string>, d: string): (r: string)
    ensures q.Some? && q.value != "" ==> r == q.value
    ensures q.None? || q.value == "" ==> r == d
  {
    if q.Some? && q.value != "" then q.value else d
  }

  /** A query parameter as the handlers see it after `q || null`: an empty
      value is the same as a missing one. */
  function NonEmpty(q: Option<string>): (r: Option<string>)
    ensures r.Some? <==> q.Some? && q.value != ""
    ensures r.Some? ==> r == q
  {
    if q.Some? && q.value != "" then q else None
  }

  predicate IsUpper(c: char) {
    'A' <= c <= 'Z'
  }

  function LowerChar(c: char): (r: char)
    ensures !IsUpper(r)
    ensures !IsUpper(c) ==> r == c
  {
    if IsUpper(c) then (c as int + 32) as char else c
  }

  /** `String.prototype.toLowerCase`, restricted to the ASCII letters. */
  function Lower(s: string): (r: string)
    ensures |r| == |s|
    ensures forall i :: 0 <= i < |s| ==> r[i] == LowerChar(s[i])
  {
    if s == [] then [] else [LowerChar(s[0])] + Lower(s[1..])
  }

  /** The four menu languages: the client's `allowedLangs` and the
      `language_code` enum of every translation table. */
  predicate Supported(lang: string) {
    lang == "tr" || lang == "en" || lang == "es" || lang == "fr"
  }

  const DefaultLang: string := "en"
}

=== FILE: customer_menu.dfy ===
/** `GET /api/menu/:slug` (routes/customerMenu.js): the customer menu as one
    flat list of items, optionally narrowed to a category and subcategory
    name, newest item id first. */
module CustomerMenu {
  import opened Common
  import opened Seqs
  import opened Sorting
  import opened Schema

  datatype MenuEntry = MenuEntry(
    id: int,
    name: string,
    description: Option<string>,
    price: Option<string>,
    photoUrl: Option<string>,
    allergens: Option<string>,
    createdAt: Option<string>,
    categoryName: Option<string>,
    subcategoryName: Option<string>)

  /** A failed query; `sqlMessage` is absent for errors not raised by MySQL. */
  datatype DbError = DbError(sqlMessage: Option<string>)

  datatype Request = Request(
    slug: string, lang: Option<string>, category: Option<string>, subcategory: Option<string>)

  datatype Faults = Faults(restaurantQuery: Option<DbError>, menuQuery: Option<DbError>)

  /** The three bodies: `{success:true, menu}`, `{success:false, error:'Restaurant not found'}`
      and `{success:false, error}` with status 500. */
  datatype Response = Menu(menu: seq<MenuEntry>) | RestaurantMissing | QueryFailed(error: string)
  {
    function Status(): int {
      if QueryFailed? then 500 else 200
    }

    function Success(): bool {
      Menu?
    }

    function ErrorMessage(): Option<string> {
      match this
      case Menu(_) => None
      case RestaurantMissing => Some("Restaurant not found")
      case QueryFailed(e) => Some(e)
    }
  }

  /** `error.sqlMessage || 'Database error'`. */
  function ErrorText(e: DbError): (text: string)
    ensures text != ""
    ensures e.sqlMessage.Some? && e.sqlMessage.value != "" ==> text == e.sqlMessage.value
    ensures e.sqlMessage.None? || e.sqlMessage.value == "" ==> text == "Database error"
  {
    QueryOr(e.sqlMessage, "Database error")
  }

  /** The category filter in effect: `category && category !== 'All'`. */
  function CategoryFilter(q: Option<string>): (f: Option<string>)
    ensures f.Some? <==> q.Some? && q.value != "" && q.value != "All"
    ensures f.Some? ==> f == q
  {
    if q.Some? && q.value != "" && q.value != "All" then q else None
  }

  function NamedRowId(r: NamedRow): int { r.id }

  function LegacyTranslationKey(t: LegacyItemTranslation): (int, string) {
    (t.originalItemId, t.languageCode)
  }

  /** `c.name` from `LEFT JOIN categories c ON mi.category_id = c.id`: NULL
      without a matching row, else the matching row's (nullable) name. */
  function CategoryNameOf(db: Database, i: MenuItem): (n: Option<string>)
    ensures n.Some? ==> exists c :: c in db.legacyCategories && c.id == i.categoryId && c.name == n
    ensures (forall k :: 0 <= k < |db.legacyCategories| ==> db.legacyCategories[k].id != i.categoryId) ==> n.None?
    ensures (exists c :: c in db.legacyCategories && c.id == i.categoryId) ==>
      exists c :: c in db.legacyCategories && c.id == i.categoryId && c.name == n
    ensures KeysUnique(db.legacyCategories, NamedRowId) ==>
      forall c :: c in db.legacyCategories && c.id == i.categoryId ==> n == c.name
  {
    LookupFindsUnique(db.legacyCategories, NamedRowId, i.categoryId);
    match LookupBy(db.legacyCategories, NamedRowId, i.categoryId)
    case Some(c) => c.name
    case None => None
  }

  /** `sc.name` from `LEFT JOIN sub_categories sc ON mi.sub_category_id = sc.id`:
      a NULL `sub_category_id` matches nothing, otherwise as for categories. */
  function SubcategoryNameOf(db: Database, i: MenuItem): (n: Option<string>)
    ensures i.subCategoryIdLegacy.None? ==> n.None?
    ensures n.Some? ==>
      exists s :: s in db.legacySubcategories && Some(s.id) == i.subCategoryIdLegacy && s.name == n
    ensures (forall k :: 0 <= k < |db.legacySubcategories| ==> Some(db.legacySubcategories[k].id) != i.subCategoryIdLegacy) ==>
      n.None?
    ensures (exists s :: s in db.legacySubcategories && Some(s.id) == i.subCategoryIdLegacy) ==>
      exists s :: s in db.legacySubcategories && Some(s.id) == i.subCategoryIdLegacy && s.name == n
    ensures KeysUnique(db.legacySubcategories, NamedRowId) ==>
      forall s :: s in db.legacySubcategories && Some(s.id) == i.subCategoryIdLegacy ==> n == s.name
  {
    match i.subCategoryIdLegacy
    case None => None
    case Some(sid) =>
      LookupFindsUnique(db.legacySubcategories, NamedRowId, sid);
      match LookupBy(db.legacySubcategories, NamedRowId, sid)
      case Some(s) => s.name
      case None => None
  }

  /** The `WHERE` clause: the restaurant, then `c.name = ?` and `sc.name = ?`
      when those filters are in effect. A NULL name never equals a filter. */
  predicate Selected(db: Database, rid: int, category: Option<string>, subcategory: Option<string>, i: MenuItem) {
    && i.restaurantId == rid
    && (category.None? || CategoryNameOf(db, i) == category)
    && (subcategory.None? || SubcategoryNameOf(db, i) == subcategory)
  }

  function Selector(db: Database, rid: int, category: Option<string>, subcategory: Option<string>): MenuItem -> bool {
    i => Selected(db, rid, category, subcategory, i)
  }

  /** `ORDER BY mi.id DESC`. */
  function IdDescending(i: MenuItem): SortKey {
    SortKey(0, -i.id, 0)
  }

  /** One selected row: the translated name and description when present. */
  function EntryOf(db: Database, lang: string, i: MenuItem): (e: MenuEntry)
    ensures e.id == i.id && e.price == i.price && e.photoUrl == i.image && e.allergens == i.allergens
    ensures e.categoryName == CategoryNameOf(db, i) && e.subcategoryName == SubcategoryNameOf(db, i)
    ensures (forall k :: 0 <= k < |db.legacyItemTranslations| ==>
               LegacyTranslationKey(db.legacyItemTranslations[k]) != (i.id, lang)) ==>
      e.name == i.name && e.description == i.description
    ensures KeysUnique(db.legacyItemTranslations, LegacyTranslationKey) ==>
      forall t :: t in db.legacyItemTranslations && LegacyTranslationKey(t) == (i.id, lang) ==>
        e.name == Coalesce(t.translatedName, i.name)
        && e.description == CoalesceOpt(t.translatedDescription, i.description)
  {
    var trs := db.legacyItemTranslations;
    LookupFindsUnique(trs, LegacyTranslationKey, (i.id, lang));
    var tr := LookupBy(trs, LegacyTranslationKey, (i.id, lang));
    var name := Coalesce(if tr.Some? then tr.value.translatedName else None, i.name);
    var description := CoalesceOpt(if tr.Some? then tr.value.translatedDescription else None, i.description);
    MenuEntry(i.id, name, description, i.price, i.image, i.allergens, i.createdAt,
              CategoryNameOf(db, i), SubcategoryNameOf(db, i))
  }

  function EntryMaker(db: Database, lang: string): MenuItem -> MenuEntry {
    i => EntryOf(db, lang, i)
  }

  /** The selected rows of the restaurant, highest id first. */
  function SelectedRows(db: Database, rid: int, category: Option<string>, subcategory: Option<string>): (r: seq<MenuItem>)
    ensures SortedBy(r, IdDescending)
    ensures multiset(r) == multiset(Filter(Selector(db, rid, category, subcategory), db.items))
    ensures forall k :: 0 <= k < |r| ==> r[k] in db.items && Selected(db, rid, category, subcategory, r[k])
    ensures forall i :: i in db.items && Selected(db, rid, category, subcategory, i) ==> i in r
  {
    var p := Selector(db, rid, category, subcategory);
    var r := SelectOrdered(db.items, p, IdDescending);
    forall i | i in db.items && Selected(db, rid, category, subcategory, i)
      ensures i in r
    {
      var k :| 0 <= k < |db.items| && db.items[k] == i;
      assert p(db.items[k]);
    }
    r
  }

  /** With item ids a primary key, the selected rows have strictly
      decreasing ids. */
  lemma SelectedRowsStrictlyDescending(db: Database, rid: int, category: Option<string>, subcategory: Option<string>)
    requires KeysUnique(db.items, ItemId)
    ensures var r := SelectedRows(db, rid, category, subcategory);
      forall j, k :: 0 <= j < k < |r| ==> r[j].id > r[k].id
  {
    var r := SelectedRows(db, rid, category, subcategory);
    FilterSubMultiset(Selector(db, rid, category, subcategory), db.items);
    KeysUniqueSubMultiset(r, db.items, ItemId);
    forall j, k | 0 <= j < k < |r|
      ensures r[j].id > r[k].id
    {
      assert KeyLe(IdDescending(r[j]), IdDescending(r[k]));
      assert ItemId(r[j]) != ItemId(r[k]);
    }
  }

  /** The handler. The slug lookup precedes the menu query; an unknown slug
      is reported in the body with the default status, not as a 404. */
  function GetCustomerMenu(req: Request, db: Database, faults: Faults): (r: Response)
    ensures r.RestaurantMissing? <==>
      faults.restaurantQuery.None? && forall k :: 0 <= k < |db.restaurants| ==> db.restaurants[k].slug != req.slug
    ensures r.RestaurantMissing? ==> r.Status() == 200 && !r.Success()
    ensures r.QueryFailed? <==>
      faults.restaurantQuery.Some?
      || ((exists k :: 0 <= k < |db.restaurants| && db.restaurants[k].slug == req.slug) && faults.menuQuery.Some?)
    ensures r.QueryFailed? ==> r.Status() == 500 && r.error != ""
    ensures r.QueryFailed? && faults.restaurantQuery.Some? ==> r.error == ErrorText(faults.restaurantQuery.value)
    ensures r.QueryFailed? && faults.restaurantQuery.None? ==>
      faults.menuQuery.Some? && r.error == ErrorText(faults.menuQuery.value)
    ensures r.Menu? ==>
      exists rest :: rest in db.restaurants && rest.slug == req.slug
        && r.menu == Map(EntryMaker(db, QueryOr(req.lang, DefaultLang)),
                         SelectedRows(db, rest.id, CategoryFilter(req.category), NonEmpty(req.subcategory)))
  {
    var lang := QueryOr(req.lang, DefaultLang);
    var category := CategoryFilter(req.category);
    var subcategory := NonEmpty(req.subcategory);
    if faults.restaurantQuery.Some? then QueryFailed(ErrorText(faults.restaurantQuery.value))
    else
      match LookupBy(db.restaurants, (x: Restaurant) => x.slug, req.slug)
      case None => RestaurantMissing
      case Some(rest) =>
        if faults.menuQuery.Some? then QueryFailed(ErrorText(faults.menuQuery.value))
        else Menu(Map(EntryMaker(db, lang), SelectedRows(db, rest.id, category, subcategory)))
  }

  // ---- as wired: `await` on the callback-style connection ----

  /** What `await db.query(...)` gives on the connection config/db.js exports:
      it is mysql2's callback interface, whose query object's `then` throws a
      plain `Error`, one without `sqlMessage`. */
  const AwaitedCallbackQuery: DbError := DbError(None)

  /** The handler as wired: the first awaited query, the slug lookup,
      rejects on every request. */
  function GetCustomerMenuAsWired(req: Request, db: Database): (r: Response)
    ensures r.QueryFailed?
  {
    GetCustomerMenu(req, db, Faults(Some(AwaitedCallbackQuery), None))
  }

  /** As wired, every request answers 500 with `Database error`, whatever
      the slug and the tables. */
  lemma AsWiredMenuNeverServes(req: Request, db: Database)
    ensures var r := GetCustomerMenuAsWired(req, db);
      r.Status() == 500 && !r.Success() && r.ErrorMessage() == Some("Database error")
  {
  }

  /** With a promise-returning connection and no failing query, a known
      slug gets its menu and an unknown one `Restaurant not found`. */
  lemma ConnectedMenuServesKnownSlugs(req: Request, db: Database)
    ensures var r := GetCustomerMenu(req, db, Faults(None, None));
      && (r.Menu? <==> exists k :: 0 <= k < |db.restaurants| && db.restaurants[k].slug == req.slug)
      && (r.RestaurantMissing? <==> forall k :: 0 <= k < |db.restaurants| ==> db.restaurants[k].slug != req.slug)
      && r.Status() == 200
  {
  }

  /** Every entry of the listing is an item of the restaurant that passes
      the filters in effect. */
  lemma {:induction false} EntriesSelected(db: Database, lang: string, rid: int, category: Option<string>, subcategory: Option<string>)
    ensures var menu := Map(EntryMaker(db, lang), SelectedRows(db, rid, category, subcategory));
      forall k :: 0 <= k < |menu| ==>
        && (exists i :: i in db.items && i.restaurantId == rid && menu[k] == EntryOf(db, lang, i))
        && (category.Some? ==> menu[k].categoryName == category)
        && (subcategory.Some? ==> menu[k].subcategoryName == subcategory)
  {
    var rows := SelectedRows(db, rid, category, subcategory);
    var menu := Map(EntryMaker(db, lang), rows);
    forall k | 0 <= k < |menu|
      ensures exists i :: i in db.items && i.restaurantId == rid && menu[k] == EntryOf(db, lang, i)
      ensures category.Some? ==> menu[k].categoryName == category
      ensures subcategory.Some? ==> menu[k].subcategoryName == subcategory
    {
      assert menu[k] == EntryOf(db, lang, rows[k]);
      assert Selected(db, rid, category, subcategory, rows[k]);
    }
  }

  /** A successful response is the slug's restaurant's selected rows, projected. */
  lemma MenuRows(req: Request, db: Database, faults: Faults) returns (rest: Restaurant, rows: seq<MenuItem>)
    requires GetCustomerMenu(req, db, faults).Menu?
    ensures rest in db.restaurants && rest.slug == req.slug
    ensures rows == SelectedRows(db, rest.id, CategoryFilter(req.category), NonEmpty(req.subcategory))
    ensures GetCustomerMenu(req, db, faults).menu == Map(EntryMaker(db, QueryOr(req.lang, DefaultLang)), rows)
  {
    var menu := GetCustomerMenu(req, db, faults).menu;
    rest :| rest in db.restaurants && rest.slug == req.slug
      && menu == Map(EntryMaker(db, QueryOr(req.lang, DefaultLang)),
                     SelectedRows(db, rest.id, CategoryFilter(req.category), NonEmpty(req.subcategory)));
    rows := SelectedRows(db, rest.id, CategoryFilter(req.category), NonEmpty(req.subcategory));
  }

  /** A successful response lists only items of the restaurant the slug
      names; with a category other than `All` every entry carries that
      category name, and with a subcategory every entry carries that
      subcategory name. */
  lemma MenuRespectsFilters(req: Request, db: Database, faults: Faults)
    requires GetCustomerMenu(req, db, faults).Menu?
    ensures var menu := GetCustomerMenu(req, db, faults).menu;
      exists rest :: rest in db.restaurants && rest.slug == req.slug
        && forall k :: 0 <= k < |menu| ==>
             exists i :: i in db.items && i.restaurantId == rest.id && menu[k].id == i.id
    ensures var menu := GetCustomerMenu(req, db, faults).menu;
      req.category.Some? && req.category.value != "" && req.category.value != "All" ==>
        forall k :: 0 <= k < |menu| ==> menu[k].categoryName == req.category
    ensures var menu := GetCustomerMenu(req, db, faults).menu;
      req.subcategory.Some? && req.subcategory.value != "" ==>
        forall k :: 0 <= k < |menu| ==> menu[k].subcategoryName == req.subcategory
  {
    var menu := GetCustomerMenu(req, db, faults).menu;
    var lang := QueryOr(req.lang, DefaultLang);
    var category := CategoryFilter(req.category);
    var subcategory := NonEmpty(req.subcategory);
    var rest, rows := MenuRows(req, db, faults);
    EntriesSelected(db, lang, rest.id, category, subcategory);
    forall k | 0 <= k < |menu|
      ensures exists i :: i in db.items && i.restaurantId == rest.id && menu[k].id == i.id
    {
      var i :| i in db.items && i.restaurantId == rest.id && menu[k] == EntryOf(db, lang, i);
      assert menu[k].id == i.id;
    }
  }

  /** The listing is ordered by item id, strictly descending. */
  lemma MenuNewestFirst(req: Request, db: Database, faults: Faults)
    requires KeysUnique(db.items, ItemId)
    requires GetCustomerMenu(req, db, faults).Menu?
    ensures var menu := GetCustomerMenu(req, db, faults).menu;
      forall j, k :: 0 <= j < k < |menu| ==> menu[j].id > menu[k].id
  {
    var menu := GetCustomerMenu(req, db, faults).menu;
    var rest, rows := MenuRows(req, db, faults);
    SelectedRowsStrictlyDescending(db, rest.id, CategoryFilter(req.category), NonEmpty(req.subcategory));
    forall j, k | 0 <= j < k < |menu|
      ensures menu[j].id > menu[k].id
    {
      assert menu[j].id == rows[j].id && menu[k].id == rows[k].id;
    }
  }
}

=== FILE: home_links.dfy ===
/** The links `renderHome` (public/app.js) puts on the restaurant's home page
    towards its menu page, `/${r.slug}/menu?lang=${data.lang}`, and where the
    browser script lands when one is followed. */
module HomeLinks {
  import opened Common
  import opened Seqs
  import opened ClientRoute

  /** A link as the next page load reads it: the path and the `lang` query value. */
  datatype Target = Target(path: string, langQuery: Option<string>)

  /** `${data.lang}` in a template literal: an absent field prints as `undefined`. */
  function LangText(field: Option<string>): string {
    if field.Some? then field.value else "undefined"
  }

  /** The menu link for the restaurant `slug`, given the `lang` field of the
      fetched body. */
  function MenuLink(slug: string, langField: Option<string>): (t: Target)
    ensures t.langQuery == Some(LangText(langField))
  {
    Target("/" + slug + "/menu", Some(LangText(langField)))
  }

  /** A slug as the home page received it: the first path segment of its own URL. */
  predicate PlainSlug(slug: string) {
    slug != "" && '/' !in slug
  }

  lemma {:induction false} SplitPlain(a: string)
    requires '/' !in a
    ensures Split(a) == [a]
    decreases |a|
  {
    if a != [] {
      assert a[0] in a;
      assert forall c :: c in a[1..] ==> c in a;
      SplitPlain(a[1..]);
      assert [a[0]] + a[1..] == a;
    }
  }

  lemma {:induction false} SplitAfterPlain(a: string, rest: string)
    requires '/' !in a
    ensures Split(a + "/" + rest) == [a] + Split(rest)
    decreases |a|
  {
    var s := a + "/" + rest;
    if a == [] {
      assert s == "/" + rest;
      assert s[1..] == rest;
    } else {
      assert a[0] in a;
      assert forall c :: c in a[1..] ==> c in a;
      assert s[0] == a[0];
      assert s[1..] == a[1..] + "/" + rest;
      SplitAfterPlain(a[1..], rest);
      assert [a[0]] + a[1..] == a;
    }
  }

  lemma SplitMenuPath(slug: string)
    requires PlainSlug(slug)
    ensures Split("/" + slug + "/menu") == ["", slug, "menu"]
  {
    var q := slug + "/" + "menu";
    assert "/" + slug + "/menu" == "" + "/" + q;
    SplitAfterPlain("", q);
    SplitAfterPlain(slug, "menu");
    assert '/' !in "menu";
    SplitPlain("menu");
  }

  lemma FilterMenuPieces(slug: string)
    requires PlainSlug(slug)
    ensures Filter(IsSegment, ["", slug, "menu"]) == [slug, "menu"]
  {
    var parts := ["", slug, "menu"];
    assert parts[1..] == [slug, "menu"];
    assert [slug, "menu"][1..] == ["menu"];
    assert ["menu"][1..] == [];
    assert Filter(IsSegment, ["menu"]) == ["menu"];
    assert Filter(IsSegment, [slug, "menu"]) == [slug, "menu"];
  }

  /** The menu link's path has the slug and `menu` as its two segments. */
  lemma MenuLinkSegments(slug: string)
    requires PlainSlug(slug)
    ensures Segments("/" + slug + "/menu") == [slug, "menu"]
  {
    SplitMenuPath(slug);
    FilterMenuPieces(slug);
  }

  /** Following a menu link with `lang` query value `q` opens the menu page of
      the same restaurant in the language `q` normalises to. */
  lemma FollowMenuLink(slug: string, langField: Option<string>)
    requires PlainSlug(slug)
    ensures var t := MenuLink(slug, langField);
      Start(t.path, t.langQuery) == LoadMenu("/menu/" + slug + "?lang=" + NormaliseLang(t.langQuery))
  {
    MenuLinkSegments(slug);
  }

  // ---- as written: the home body has no `lang` ----

  /** The link as `renderHome` builds it: routes/restaurants.js answers
      `{restaurant, categories, subcategories, items}`, so `data.lang` is
      always absent. */
  function HomeMenuLinkAsWritten(slug: string): (t: Target)
    ensures t.langQuery == Some("undefined")
  {
    MenuLink(slug, None)
  }

  /** `undefined` is not a menu language, whatever its case. */
  lemma UndefinedNormalisesToDefault()
    ensures NormaliseLang(Some("undefined")) == DefaultLang
  {
    var u := "undefined";
    assert Lower(u) == u;
  }

  /** Menu URLs of one restaurant differ when their languages do. */
  lemma MenuUrlsDiffer(slug: string, a: string, b: string)
    requires a != b
    ensures "/menu/" + slug + "?lang=" + a != "/menu/" + slug + "?lang=" + b
  {
    var p := "/menu/" + slug + "?lang=";
    assert (p + a)[|p|..] == a && (p + b)[|p|..] == b;
  }

  /** Whatever language the home page is shown in, its menu link opens the
      menu in English: `undefined` is not a menu language. */
  lemma HomeLinkLosesLanguage(slug: string, pageLang: string)
    requires PlainSlug(slug)
    requires Supported(pageLang) && pageLang != DefaultLang
    ensures var t := HomeMenuLinkAsWritten(slug);
      Start(t.path, t.langQuery) == LoadMenu("/menu/" + slug + "?lang=" + DefaultLang)
      && Start(t.path, t.langQuery) != LoadMenu("/menu/" + slug + "?lang=" + pageLang)
  {
    FollowMenuLink(slug, None);
    UndefinedNormalisesToDefault();
    MenuUrlsDiffer(slug, DefaultLang, pageLang);
  }

  // ---- corrected: the link carries the page's own language ----

  /** The link with the language the home page itself normalised. */
  function HomeMenuLink(slug: string, pageLang: string): (t: Target)
    ensures t.langQuery == Some(pageLang)
  {
    MenuLink(slug, Some(pageLang))
  }

  /** The menu page opened from the home page keeps the home page's language. */
  lemma HomeLinkKeepsLanguage(slug: string, pageLang: string)
    requires PlainSlug(slug)
    requires Supported(pageLang)
    ensures var t := HomeMenuLink(slug, pageLang);
      Start(t.path, t.langQuery) == LoadMenu("/menu/" + slug + "?lang=" + pageLang)
  {
    FollowMenuLink(slug, Some(pageLang));
    assert pageLang == "tr" || pageLang == "en" || pageLang == "es" || pageLang == "fr";
    assert Lower(pageLang) == pageLang;
  }
}

=== FILE: html_escape.dfy ===
/** `escapeHtml` (public/app.js): five chained `replaceAll` calls that turn
    `& < > " '` into character references, `&` first. */
module HtmlEscape {
  import opened Common

  /** `s.replaceAll(c, rep)` for a one-character pattern (and a replacement
      without `$` patterns, as all five here are). */
  function ReplaceAll(s: string, c: char, rep: string): string {
    if s == [] then [] else (if s[0] == c then rep else [s[0]]) + ReplaceAll(s[1..], c, rep)
  }

  /** The chain as written, on a string. */
  function EscapeString(s: string): string {
    ReplaceAll(ReplaceAll(ReplaceAll(ReplaceAll(ReplaceAll(s, '&', "&amp;"), '<', "&lt;"), '>', "&gt;"), '"', "&quot;"), '\'', "&#39;")
  }

  /** `escapeHtml(s)`: `null` and `undefined` give the empty string. */
  function EscapeHtml(s: Option<string>): (r: string)
    ensures s.None? ==> r == ""
    ensures s.Some? ==> NoMarkup(r) && AmpersandsStartEntities(r)
    ensures s.Some? ==> Unescape(r) == s.value
  {
    match s
    case None => ""
    case Some(x) =>
      EscapeIsPerChar(x);
      EscapeEachNoMarkup(x);
      EscapeEachAmpersands(x);
      RoundTrip(x);
      EscapeString(x)
  }

  // ---- a character-wise reference definition ----

  predicate Special(c: char) {
    c == '&' || c == '<' || c == '>' || c == '"' || c == '\''
  }

  function EscapeChar(c: char): string {
    if c == '&' then "&amp;"
    else if c == '<' then "&lt;"
    else if c == '>' then "&gt;"
    else if c == '"' then "&quot;"
    else if c == '\'' then "&#39;"
    else [c]
  }

  function EscapeEach(s: string): string {
    if s == [] then [] else EscapeChar(s[0]) + EscapeEach(s[1..])
  }

  lemma {:induction false} ReplaceAllConcat(a: string, b: string, c: char, rep: string)
    ensures ReplaceAll(a + b, c, rep) == ReplaceAll(a, c, rep) + ReplaceAll(b, c, rep)
    decreases |a|
  {
    if a == [] {
      assert a + b == b;
    } else {
      assert (a + b)[0] == a[0];
      assert (a + b)[1..] == a[1..] + b;
      ReplaceAllConcat(a[1..], b, c, rep);
    }
  }

  lemma {:induction false} ReplaceAllAbsent(s: string, c: char, rep: string)
    requires c !in s
    ensures ReplaceAll(s, c, rep) == s
    decreases |s|
  {
    if s != [] {
      ReplaceAllAbsent(s[1..], c, rep);
    }
  }

  lemma EscapeStringConcat(a: string, b: string)
    ensures EscapeString(a + b) == EscapeString(a) + EscapeString(b)
  {
    var a1, b1 := ReplaceAll(a, '&', "&amp;"), ReplaceAll(b, '&', "&amp;");
    ReplaceAllConcat(a, b, '&', "&amp;");
    var a2, b2 := ReplaceAll(a1, '<', "&lt;"), ReplaceAll(b1, '<', "&lt;");
    ReplaceAllConcat(a1, b1, '<', "&lt;");
    var a3, b3 := ReplaceAll(a2, '>', "&gt;"), ReplaceAll(b2, '>', "&gt;");
    ReplaceAllConcat(a2, b2, '>', "&gt;");
    var a4, b4 := ReplaceAll(a3, '"', "&quot;"), ReplaceAll(b3, '"', "&quot;");
    ReplaceAllConcat(a3, b3, '"', "&quot;");
    ReplaceAllConcat(a4, b4, '\'', "&#39;");
  }

  lemma ReplaceAllSingle(c: char, x: char, rep: string)
    ensures ReplaceAll([c], x, rep) == (if c == x then rep else [c])
  {
    assert [c][1..] == [];
  }

  /** The steps after `&` and `<` leave text without `> " '` alone. */
  lemma StepsAfterLt(s: string)
    requires '>' !in s && '"' !in s && '\'' !in s
    ensures ReplaceAll(ReplaceAll(ReplaceAll(s, '>', "&gt;"), '"', "&quot;"), '\'', "&#39;") == s
  {
    ReplaceAllAbsent(s, '>', "&gt;");
    ReplaceAllAbsent(s, '"', "&quot;");
    ReplaceAllAbsent(s, '\'', "&#39;");
  }

  lemma EscapeAmp()
    ensures EscapeString("&") == "&amp;"
  {
    var e := "&amp;";
    assert e[0] == '&' && e[1] == 'a' && e[2] == 'm' && e[3] == 'p' && e[4] == ';';
    assert '<' !in e && '>' !in e && '"' !in e && '\'' !in e;
    ReplaceAllSingle('&', '&', e);
    assert ReplaceAll("&", '&', e) == e;
    ReplaceAllAbsent(e, '<', "&lt;");
    StepsAfterLt(e);
  }

  lemma EscapeLt()
    ensures EscapeString("<") == "&lt;"
  {
    ReplaceAllSingle('<', '&', "&amp;");
    ReplaceAllSingle('<', '<', "&lt;");
    StepsAfterLt("&lt;");
  }

  lemma EscapeOther(c: char)
    requires c != '&' && c != '<'
    ensures EscapeString([c]) == ReplaceAll(ReplaceAll(ReplaceAll([c], '>', "&gt;"), '"', "&quot;"), '\'', "&#39;")
  {
    ReplaceAllSingle(c, '&', "&amp;");
    ReplaceAllSingle(c, '<', "&lt;");
  }

  lemma EscapeGt()
    ensures EscapeString(">") == "&gt;"
  {
    EscapeOther('>');
    ReplaceAllSingle('>', '>', "&gt;");
    ReplaceAllAbsent("&gt;", '"', "&quot;");
    ReplaceAllAbsent("&gt;", '\'', "&#39;");
  }

  lemma EscapeQuot()
    ensures EscapeString("\"") == "&quot;"
  {
    EscapeOther('"');
    ReplaceAllSingle('"', '>', "&gt;");
    ReplaceAllSingle('"', '"', "&quot;");
    ReplaceAllAbsent("&quot;", '\'', "&#39;");
  }

  lemma EscapeApos()
    ensures EscapeString("'") == "&#39;"
  {
    EscapeOther('\'');
    ReplaceAllSingle('\'', '>', "&gt;");
    ReplaceAllSingle('\'', '"', "&quot;");
    ReplaceAllSingle('\'', '\'', "&#39;");
  }

  lemma EscapePlainChar(c: char)
    requires !Special(c)
    ensures EscapeString([c]) == [c]
  {
    EscapeOther(c);
    ReplaceAllSingle(c, '>', "&gt;");
    ReplaceAllSingle(c, '"', "&quot;");
    ReplaceAllSingle(c, '\'', "&#39;");
  }

  /** On one character the chain is `EscapeChar`: no replacement text contains
      a character a later step replaces. */
  lemma EscapeStringChar(c: char)
    ensures EscapeString([c]) == EscapeChar(c)
  {
    if c == '&' { EscapeAmp(); }
    else if c == '<' { EscapeLt(); }
    else if c == '>' { EscapeGt(); }
    else if c == '"' { EscapeQuot(); }
    else if c == '\'' { EscapeApos(); }
    else { EscapePlainChar(c); }
  }

  /** The chain escapes each character independently. */
  lemma {:induction false} EscapeIsPerChar(s: string)
    ensures EscapeString(s) == EscapeEach(s)
    decreases |s|
  {
    if s == [] {
    } else {
      assert s == [s[0]] + s[1..];
      EscapeStringConcat([s[0]], s[1..]);
      EscapeStringChar(s[0]);
      EscapeIsPerChar(s[1..]);
    }
  }

  /** Strings without the five characters pass through unchanged. */
  lemma {:induction false} EscapeIdentityOnPlainText(s: string)
    requires forall i :: 0 <= i < |s| ==> !Special(s[i])
    ensures EscapeHtml(Some(s)) == s
    decreases |s|
  {
    EscapeIsPerChar(s);
    EscapeEachPlain(s);
  }

  lemma {:induction false} EscapeEachPlain(s: string)
    requires forall i :: 0 <= i < |s| ==> !Special(s[i])
    ensures EscapeEach(s) == s
    decreases |s|
  {
    if s != [] {
      EscapeEachPlain(s[1..]);
    }
  }

  // ---- what the output looks like ----

  /** No character that opens a tag or closes an attribute value. */
  predicate NoMarkup(s: string) {
    forall i :: 0 <= i < |s| ==> s[i] != '<' && s[i] != '>' && s[i] != '"' && s[i] != '\''
  }

  predicate StartsWith(s: string, p: string) {
    |p| <= |s| && s[..|p|] == p
  }

  predicate EntityAt(s: string, i: int)
    requires 0 <= i <= |s|
  {
    var t := s[i..];
    StartsWith(t, "&amp;") || StartsWith(t, "&lt;") || StartsWith(t, "&gt;")
    || StartsWith(t, "&quot;") || StartsWith(t, "&#39;")
  }

  /** Every `&` begins one of the five references. */
  predicate AmpersandsStartEntities(s: string) {
    forall i :: 0 <= i < |s| && s[i] == '&' ==> EntityAt(s, i)
  }

  lemma {:induction false} EscapeEachNoMarkup(s: string)
    ensures NoMarkup(EscapeEach(s))
    decreases |s|
  {
    if s != [] {
      EscapeEachNoMarkup(s[1..]);
      var e, rest := EscapeChar(s[0]), EscapeEach(s[1..]);
      forall i | 0 <= i < |e + rest|
        ensures (e + rest)[i] != '<' && (e + rest)[i] != '>' && (e + rest)[i] != '"' && (e + rest)[i] != '\''
      {
        if i >= |e| {
          assert (e + rest)[i] == rest[i - |e|];
        }
      }
    }
  }

  lemma {:induction false} EscapeEachAmpersands(s: string)
    ensures AmpersandsStartEntities(EscapeEach(s))
    decreases |s|
  {
    if s != [] {
      EscapeEachAmpersands(s[1..]);
      var e, rest := EscapeChar(s[0]), EscapeEach(s[1..]);
      var r := e + rest;
      forall i | 0 <= i < |r| && r[i] == '&'
        ensures EntityAt(r, i)
      {
        if i >= |e| {
          assert r[i..] == rest[i - |e|..];
          assert rest[i - |e|] == '&';
        } else {
          assert i == 0;
          assert r[i..] == e + rest;
          assert (e + rest)[..|e|] == e;
        }
      }
    }
  }

  // ---- the partner: decoding the five references ----

  /** Replaces each of the five references by its character, left to right. */
  function Unescape(s: string): string
    decreases |s|
  {
    if s == [] then []
    else if StartsWith(s, "&amp;") then "&" + Unescape(s[5..])
    else if StartsWith(s, "&lt;") then "<" + Unescape(s[4..])
    else if StartsWith(s, "&gt;") then ">" + Unescape(s[4..])
    else if StartsWith(s, "&quot;") then "\"" + Unescape(s[6..])
    else if StartsWith(s, "&#39;") then "'" + Unescape(s[5..])
    else [s[0]] + Unescape(s[1..])
  }

  lemma UnescapeAmp(t: string)
    ensures Unescape("&amp;" + t) == "&" + Unescape(t)
  {
    var s := "&amp;" + t;
    assert s[..5] == "&amp;" && s[5..] == t;
  }

  lemma UnescapeLt(t: string)
    ensures Unescape("&lt;" + t) == "<" + Unescape(t)
  {
    var s := "&lt;" + t;
    assert s[1] == 'l';
    assert s[..4] == "&lt;" && s[4..] == t;
  }

  lemma UnescapeGt(t: string)
    ensures Unescape("&gt;" + t) == ">" + Unescape(t)
  {
    var s := "&gt;" + t;
    assert s[1] == 'g';
    assert s[..4] == "&gt;" && s[4..] == t;
  }

  lemma UnescapeQuot(t: string)
    ensures Unescape("&quot;" + t) == "\"" + Unescape(t)
  {
    var s := "&quot;" + t;
    assert s[1] == 'q';
    assert s[..6] == "&quot;" && s[6..] == t;
  }

  lemma UnescapeApos(t: string)
    ensures Unescape("&#39;" + t) == "'" + Unescape(t)
  {
    var s := "&#39;" + t;
    assert s[1] == '#';
    assert s[..5] == "&#39;" && s[5..] == t;
  }

  /** A string that does not open with `&` opens no reference. */
  lemma NoReferenceAt(s: string, p: string)
    requires s != [] && s[0] != '&'
    requires p != [] && p[0] == '&'
    ensures !StartsWith(s, p)
  {
    if |p| <= |s| {
      assert s[..|p|][0] == s[0];
    }
  }

  lemma UnescapePlain(c: char, t: string)
    requires c != '&'
    ensures Unescape([c] + t) == [c] + Unescape(t)
  {
    var s := [c] + t;
    assert s[0] == c && s[1..] == t;
    NoReferenceAt(s, "&amp;");
    NoReferenceAt(s, "&lt;");
    NoReferenceAt(s, "&gt;");
    NoReferenceAt(s, "&quot;");
    NoReferenceAt(s, "&#39;");
  }

  lemma UnescapeStep(c: char, t: string)
    ensures Unescape(EscapeChar(c) + t) == [c] + Unescape(t)
  {
    if c == '&' { UnescapeAmp(t); }
    else if c == '<' { UnescapeLt(t); }
    else if c == '>' { UnescapeGt(t); }
    else if c == '"' { UnescapeQuot(t); }
    else if c == '\'' { UnescapeApos(t); }
    else { UnescapePlain(c, t); }
  }

  /** Decoding an escaped string gives it back. */
  lemma {:induction false} RoundTrip(s: string)
    ensures Unescape(EscapeEach(s)) == s
    decreases |s|
  {
    if s != [] {
      UnescapeStep(s[0], EscapeEach(s[1..]));
      RoundTrip(s[1..]);
    }
  }
}

=== FILE: menu_items.dfy ===
/** The menu-item routes of routes/menuItems.js: item creation, the
    time-windowed translated listing, and the translation upsert. */
module MenuItems {
  import opened Common
  import opened Seqs
  import opened Schema

  // ---- POST /items ----

  /** The request body fields the handler reads, as JavaScript values. */
  datatype NewItemBody = NewItemBody(
    name: JsValue,
    description: JsValue,
    price: JsValue,
    categoryId: JsValue,
    restoranId: JsValue,
    tags: JsValue,
    allergens: JsValue,
    availableFrom: JsValue,
    availableTo: JsValue)

  /** The stored upload, as the upload middleware reports it. */
  datatype UploadedFile = UploadedFile(filename: string)

  /** The values bound to the `INSERT INTO menu_items` placeholders. */
  datatype NewItemRow = NewItemRow(
    name: JsValue,
    description: JsValue,
    price: JsValue,
    categoryId: JsValue,
    restaurantId: JsValue,
    tags: JsValue,
    allergens: JsValue,
    availableFrom: JsValue,
    availableTo: JsValue,
    photoUrl: Option<string>)

  datatype CreateResponse = MissingFields | InsertFailed | Created(row: NewItemRow)
  {
    function Status(): int {
      match this
      case MissingFields => 400
      case InsertFailed => 500
      case Created(_) => 201
    }
  }

  const UploadsPrefix: string := "/uploads/"

  /** `req.file ? `/uploads/${req.file.filename}` : null`. */
  function PhotoUrl(file: Option<UploadedFile>): (url: Option<string>)
    ensures url.Some? <==> file.Some?
    ensures url.Some? ==>
      |url.value| == |UploadsPrefix| + |file.value.filename|
      && url.value[..|UploadsPrefix|] == UploadsPrefix
      && url.value[|UploadsPrefix|..] == file.value.filename
  {
    match file
    case None => None
    case Some(f) => Some(UploadsPrefix + f.filename)
  }

  /** Creation: 400 when any of name, price, category_id, restoran_id or
      allergens is falsy (so a price of 0 or "" is refused), else the insert,
      which answers 500 when the database rejects it. */
  function CreateItem(body: NewItemBody, file: Option<UploadedFile>, insertError: Option<string>): (r: CreateResponse)
    ensures r.MissingFields? <==>
      !Truthy(body.name) || !Truthy(body.price) || !Truthy(body.categoryId)
      || !Truthy(body.restoranId) || !Truthy(body.allergens)
    ensures body.price == Num(0.0) || body.price == Str("") ==> r.Status() == 400
    ensures r.InsertFailed? <==> !r.MissingFields? && insertError.Some?
    ensures r.Created? ==>
      && Truthy(r.row.name) && Truthy(r.row.price) && Truthy(r.row.allergens)
      && r.row.name == body.name && r.row.price == body.price
      && r.row.categoryId == body.categoryId && r.row.restaurantId == body.restoranId
      && r.row.allergens == body.allergens && r.row.photoUrl == PhotoUrl(file)
    ensures r.Created? ==>
      && r.row.description == body.description && r.row.tags == body.tags
      && r.row.availableFrom == body.availableFrom && r.row.availableTo == body.availableTo
  {
    if !Truthy(body.name) || !Truthy(body.price) || !Truthy(body.categoryId)
       || !Truthy(body.restoranId) || !Truthy(body.allergens)
    then MissingFields
    else if insertError.Some? then InsertFailed
    else Created(NewItemRow(body.name, body.description, body.price, body.categoryId, body.restoranId,
                            body.tags, body.allergens, body.availableFrom, body.availableTo, PhotoUrl(file)))
  }

  // ---- GET /items/:restaurant_id ----

  datatype ListedItem = ListedItem(
    id: int,
    name: string,
    description: Option<string>,
    price: Option<string>,
    photoUrl: Option<string>,
    tags: Option<string>,
    allergens: Option<string>)

  datatype ListResponse = Listed(rows: seq<ListedItem>) | ListFailed
  {
    function Status(): int {
      if ListFailed? then 500 else 200
    }
  }

  /** `(available_from IS NULL OR available_from <= now) AND
      (available_to IS NULL OR available_to >= now)`. */
  predicate AvailableAt(i: MenuItem, now: TimeOfDay) {
    (i.availableFrom.None? || i.availableFrom.value <= now)
    && (i.availableTo.None? || i.availableTo.value >= now)
  }

  /** An item whose window ends before it starts (one meant to span
      midnight, say) is listed at no time of day. */
  lemma InvertedWindowNeverListed(i: MenuItem, now: TimeOfDay)
    requires i.availableFrom.Some? && i.availableTo.Some?
    requires i.availableTo.value < i.availableFrom.value
    ensures !AvailableAt(i, now)
  {
  }

  /** One listed row: translated name and description when present. */
  function ListedOf(i: MenuItem, trs: seq<ItemTranslation>, lang: string): (r: ListedItem)
    ensures r.id == i.id && r.price == i.price && r.photoUrl == i.photoUrl
    ensures r.tags == i.tags && r.allergens == i.allergens
    ensures (forall k :: 0 <= k < |trs| ==> ItemTranslationKey(trs[k]) != (i.id, lang)) ==>
      r.name == i.name && r.description == i.description
    ensures KeysUnique(trs, ItemTranslationKey) ==>
      forall t :: t in trs && ItemTranslationKey(t) == (i.id, lang) ==>
        r.name == t.name && r.description == (if t.description.Some? then t.description else i.description)
  {
    var texts := TranslatedTexts(i, trs, lang);
    ListedItem(i.id, texts.name, texts.description, i.price, i.photoUrl, i.tags, i.allergens)
  }

  function ListedId(r: ListedItem): int { r.id }

  predicate Listable(rid: int, now: TimeOfDay, i: MenuItem) {
    i.restaurantId == rid && AvailableAt(i, now)
  }

  function ListableAt(rid: int, now: TimeOfDay): MenuItem -> bool {
    i => Listable(rid, now, i)
  }

  function ListedMaker(trs: seq<ItemTranslation>, lang: string): MenuItem -> ListedItem {
    i => ListedOf(i, trs, lang)
  }

  /** The listing query, in table order (it has no `ORDER BY`). */
  function ListedRows(db: Database, rid: int, lang: string, now: TimeOfDay): (r: seq<ListedItem>)
    ensures forall k :: 0 <= k < |r| ==>
      exists i :: i in db.items && Listable(rid, now, i) && r[k] == ListedOf(i, db.itemTranslations, lang)
    ensures forall i :: i in db.items && Listable(rid, now, i) ==> ListedOf(i, db.itemTranslations, lang) in r
    ensures KeysUnique(db.items, ItemId) ==> KeysUnique(r, ListedId)
  {
    var f := Filter(ListableAt(rid, now), db.items);
    ListedSound(db, rid, lang, now, f);
    ListedComplete(db, rid, lang, now, f);
    ListedOnce(db, rid, lang, now, f);
    Map(ListedMaker(db.itemTranslations, lang), f)
  }

  lemma ListedSound(db: Database, rid: int, lang: string, now: TimeOfDay, f: seq<MenuItem>)
    requires f == Filter(ListableAt(rid, now), db.items)
    ensures var r := Map(ListedMaker(db.itemTranslations, lang), f);
      forall k :: 0 <= k < |r| ==>
        exists i :: i in db.items && Listable(rid, now, i) && r[k] == ListedOf(i, db.itemTranslations, lang)
  {
    var r := Map(ListedMaker(db.itemTranslations, lang), f);
    forall k | 0 <= k < |r|
      ensures exists i :: i in db.items && Listable(rid, now, i) && r[k] == ListedOf(i, db.itemTranslations, lang)
    {
      assert ListableAt(rid, now)(f[k]);
      assert r[k] == ListedOf(f[k], db.itemTranslations, lang);
    }
  }

  /** The translation join matches at most one row per item, so under the
      primary key no item is listed twice. */
  lemma ListedOnce(db: Database, rid: int, lang: string, now: TimeOfDay, f: seq<MenuItem>)
    requires f == Filter(ListableAt(rid, now), db.items)
    ensures KeysUnique(db.items, ItemId) ==>
      KeysUnique(Map(ListedMaker(db.itemTranslations, lang), f), ListedId)
  {
    if KeysUnique(db.items, ItemId) {
      FilterSubMultiset(ListableAt(rid, now), db.items);
      KeysUniqueSubMultiset(f, db.items, ItemId);
      var r := Map(ListedMaker(db.itemTranslations, lang), f);
      forall i, j | 0 <= i < j < |r|
        ensures ListedId(r[i]) != ListedId(r[j])
      {
        assert ListedId(r[i]) == ItemId(f[i]) && ListedId(r[j]) == ItemId(f[j]);
      }
    }
  }

  lemma ListedComplete(db: Database, rid: int, lang: string, now: TimeOfDay, f: seq<MenuItem>)
    requires f == Filter(ListableAt(rid, now), db.items)
    ensures var r := Map(ListedMaker(db.itemTranslations, lang), f);
      forall i :: i in db.items && Listable(rid, now, i) ==> ListedOf(i, db.itemTranslations, lang) in r
  {
    var r := Map(ListedMaker(db.itemTranslations, lang), f);
    forall i | i in db.items && Listable(rid, now, i)
      ensures ListedOf(i, db.itemTranslations, lang) in r
    {
      var k :| 0 <= k < |db.items| && db.items[k] == i;
      assert ListableAt(rid, now)(db.items[k]);
      var j :| 0 <= j < |f| && f[j] == i;
      assert r[j] == ListedOf(i, db.itemTranslations, lang);
    }
  }

  /** The handler: `lang` defaults to `en`; `now` is the server's local
      time of day; a query error answers 500. */
  function ListItems(rid: int, langParam: Option<string>, now: TimeOfDay, db: Database, queryError: Option<string>): (r: ListResponse)
    ensures r.ListFailed? <==> queryError.Some?
    ensures r.Listed? ==> forall k :: 0 <= k < |r.rows| ==>
      exists i :: i in db.items && i.restaurantId == rid && AvailableAt(i, now)
        && r.rows[k] == ListedOf(i, db.itemTranslations, QueryOr(langParam, DefaultLang))
    ensures r.Listed? ==> forall i :: i in db.items && i.restaurantId == rid && AvailableAt(i, now) ==>
      ListedOf(i, db.itemTranslations, QueryOr(langParam, DefaultLang)) in r.rows
    ensures r.Listed? && KeysUnique(db.items, ItemId) ==> KeysUnique(r.rows, ListedId)
  {
    if queryError.Some? then ListFailed
    else Listed(ListedRows(db, rid, QueryOr(langParam, DefaultLang), now))
  }

  // ---- POST /items/translate ----

  /** The translation request body; a numeric id of 0 is falsy. */
  datatype TranslationBody = TranslationBody(
    menuItemId: Option<int>, languageCode: Option<string>, name: Option<string>, description: Option<string>)

  predicate TranslationComplete(b: TranslationBody) {
    && b.menuItemId.Some? && b.menuItemId.value != 0
    && b.languageCode.Some? && b.languageCode.value != ""
    && b.name.Some? && b.name.value != ""
  }

  datatype SaveResponse = TranslationMissingFields | SaveFailed | Saved(table: seq<ItemTranslation>)
  {
    function Status(): int {
      match this
      case TranslationMissingFields => 400
      case SaveFailed => 500
      case Saved(_) => 200
    }
  }

  /** `INSERT ... ON DUPLICATE KEY UPDATE name = VALUES(name), description =
      VALUES(description)` on the unique (menu_item_id, language_code) key:
      the row with the new row's key is overwritten in place, or the new
      row is appended. */
  function Upsert(table: seq<ItemTranslation>, row: ItemTranslation): (r: seq<ItemTranslation>)
    ensures row in r
    ensures forall k :: 0 <= k < |r| ==> r[k] == row || r[k] in table
    ensures forall t :: t in table && ItemTranslationKey(t) != ItemTranslationKey(row) ==> t in r
    ensures |r| <= |table| + 1
  {
    if table == [] then [row]
    else if ItemTranslationKey(table[0]) == ItemTranslationKey(row) then [row] + table[1..]
    else [table[0]] + Upsert(table[1..], row)
  }

  /** Overwriting the first row with a row of the same key keeps keys unique. */
  lemma ReplaceHeadKeepsKeyUnique(table: seq<ItemTranslation>, row: ItemTranslation)
    requires table != [] && KeysUnique(table, ItemTranslationKey)
    requires ItemTranslationKey(table[0]) == ItemTranslationKey(row)
    ensures KeysUnique([row] + table[1..], ItemTranslationKey)
  {
    var s := [row] + table[1..];
    forall i, j | 0 <= i < j < |s|
      ensures ItemTranslationKey(s[i]) != ItemTranslationKey(s[j])
    {
      assert s[j] == table[j];
      if i != 0 { assert s[i] == table[i]; }
    }
  }

  /** Putting a row in front of rows with other keys keeps keys unique. */
  lemma ConsKeepsKeyUnique(x: ItemTranslation, rest: seq<ItemTranslation>)
    requires KeysUnique(rest, ItemTranslationKey)
    requires forall j :: 0 <= j < |rest| ==> ItemTranslationKey(x) != ItemTranslationKey(rest[j])
    ensures KeysUnique([x] + rest, ItemTranslationKey)
  {
    var s := [x] + rest;
    forall i, j | 0 <= i < j < |s|
      ensures ItemTranslationKey(s[i]) != ItemTranslationKey(s[j])
    {
      assert s[j] == rest[j - 1];
      if i != 0 { assert s[i] == rest[i - 1]; }
    }
  }

  /** The upsert keeps the (menu_item_id, language_code) key unique. */
  lemma {:induction false} UpsertKeepsKeyUnique(table: seq<ItemTranslation>, row: ItemTranslation)
    requires KeysUnique(table, ItemTranslationKey)
    ensures KeysUnique(Upsert(table, row), ItemTranslationKey)
    decreases |table|
  {
    if table == [] {
    } else if ItemTranslationKey(table[0]) == ItemTranslationKey(row) {
      ReplaceHeadKeepsKeyUnique(table, row);
    } else {
      KeysUniqueTail(table, ItemTranslationKey);
      UpsertKeepsKeyUnique(table[1..], row);
      var rest := Upsert(table[1..], row);
      forall j | 0 <= j < |rest|
        ensures ItemTranslationKey(table[0]) != ItemTranslationKey(rest[j])
      {
        if rest[j] != row {
          var m :| 0 <= m < |table[1..]| && table[1..][m] == rest[j];
          assert table[m + 1] == rest[j];
        }
      }
      ConsKeepsKeyUnique(table[0], rest);
    }
  }

  /** Saving a translation: 400 unless item id, language and name are all
      present (description is optional), 500 when the database rejects the
      row, else the upserted table. */
  function SaveTranslation(body: TranslationBody, table: seq<ItemTranslation>, dbError: Option<string>): (r: SaveResponse)
    ensures r.TranslationMissingFields? <==> !TranslationComplete(body)
    ensures r.SaveFailed? <==> TranslationComplete(body) && dbError.Some?
    ensures r.Saved? ==>
      r.table == Upsert(table, ItemTranslation(body.menuItemId.value, body.languageCode.value, body.name.value, body.description))
  {
    if !TranslationComplete(body) then TranslationMissingFields
    else if dbError.Some? then SaveFailed
    else Saved(Upsert(table, ItemTranslation(body.menuItemId.value, body.languageCode.value, body.name.value, body.description)))
  }

  /** After an upsert the table holds exactly one translation for the
      row's (item, language) pair, the one just written, and every other
      pair still resolves to the translation it resolved to before. */
  lemma {:induction false} UpsertResolves(table: seq<ItemTranslation>, row: ItemTranslation, key: (int, string))
    requires KeysUnique(table, ItemTranslationKey)
    ensures var r := Upsert(table, row);
      && LookupBy(r, ItemTranslationKey, ItemTranslationKey(row)) == Some(row)
      && (forall i, j ::
            (0 <= i < |r| && 0 <= j < |r| && ItemTranslationKey(r[i]) == ItemTranslationKey(row)
             && ItemTranslationKey(r[j]) == ItemTranslationKey(row)) ==> i == j)
      && (key != ItemTranslationKey(row) ==> LookupBy(r, ItemTranslationKey, key) == LookupBy(table, ItemTranslationKey, key))
    decreases |table|
  {
    var r := Upsert(table, row);
    UpsertKeepsKeyUnique(table, row);
    LookupUnique(r, ItemTranslationKey, row);
    if table != [] && ItemTranslationKey(table[0]) != ItemTranslationKey(row) {
      KeysUniqueTail(table, ItemTranslationKey);
      UpsertResolves(table[1..], row, key);
    }
  }

  /** Of two saves to the same (item, language) pair, the later one wins. */
  lemma LastWriteWins(table: seq<ItemTranslation>, first: ItemTranslation, second: ItemTranslation)
    requires KeysUnique(table, ItemTranslationKey)
    requires ItemTranslationKey(first) == ItemTranslationKey(second)
    ensures LookupBy(Upsert(Upsert(table, first), second), ItemTranslationKey, ItemTranslationKey(first)) == Some(second)
  {
    UpsertKeepsKeyUnique(table, first);
    UpsertResolves(Upsert(table, first), second, ItemTranslationKey(second));
  }
}

=== FILE: restaurant_menu.dfy ===
/** `GET /restaurant/:slug` (routes/restaurants.js): find the restaurant by
    slug, then read its categories, subcategories and items with the
    requested language's translations laid over the base names. */
module RestaurantMenu {
  import opened Common
  import opened Seqs
  import opened Sorting
  import opened Schema

  datatype CategoryRow = CategoryRow(id: int, name: string, displayOrder: Option<int>)

  datatype SubcategoryRow = SubcategoryRow(id: int, categoryId: int, name: string, displayOrder: Option<int>)

  datatype ItemRow = ItemRow(
    id: int,
    categoryId: int,
    subcategoryId: Option<int>,
    name: string,
    description: Option<string>,
    price: Option<string>,
    currency: Option<string>,
    isNew: Option<int>,
    allergens: Option<string>,
    imageUrl: Option<string>,
    createdAt: Option<string>)

  datatype MenuDocument = MenuDocument(
    restaurant: Restaurant,
    categories: seq<CategoryRow>,
    subcategories: seq<SubcategoryRow>,
    items: seq<ItemRow>)

  /** The handler's three outcomes. */
  datatype Response = Found(doc: MenuDocument) | RestaurantNotFound(slug: string) | ServerError(detail: string)
  {
    function Status(): int {
      match this
      case Found(_) => 200
      case RestaurantNotFound(_) => 404
      case ServerError(_) => 500
    }

    /** The `error` field of the JSON body, absent on success. */
    function ErrorCode(): Option<string> {
      match this
      case Found(_) => None
      case RestaurantNotFound(_) => Some("restaurant_not_found")
      case ServerError(_) => Some("server_error")
    }
  }

  /** Which awaited call rejects, with the text `String(err)` gives. The
      connection pool and each of the four queries can fail independently. */
  datatype Faults = Faults(
    pool: Option<string>,
    restaurantQuery: Option<string>,
    categoryQuery: Option<string>,
    subcategoryQuery: Option<string>,
    itemQuery: Option<string>)

  /** `(req.query.lang || "en").toLowerCase()`: lower-cased, defaulted, and
      not checked against the supported languages. */
  function RequestLang(q: Option<string>): (lang: string)
    ensures q.None? || q.value == "" ==> lang == DefaultLang
    ensures q.Some? && q.value != "" ==> lang == Lower(q.value)
  {
    Lower(QueryOr(q, DefaultLang))
  }

  function RestaurantSlug(r: Restaurant): string { r.slug }

  // ---- categories ----

  /** `ORDER BY c.display_order ASC, c.id ASC`; a NULL display order sorts first. */
  function CategoryKey(c: Category): SortKey { NullFirstKey(c.displayOrder, c.id) }

  function CategoryRowKey(c: CategoryRow): SortKey { NullFirstKey(c.displayOrder, c.id) }

  function OwnedCategory(rid: int): Category -> bool {
    (c: Category) => c.restaurantId == rid
  }

  /** One category row after `LEFT JOIN menu_category_translations ... COALESCE(ct.name, c.name)`. */
  function ResolveCategory(c: Category, trs: seq<CategoryTranslation>, lang: string): (r: CategoryRow)
    ensures r.id == c.id && r.displayOrder == c.displayOrder
    ensures (forall i :: 0 <= i < |trs| ==> CategoryTranslationKey(trs[i]) != (c.id, lang)) ==> r.name == c.name
    ensures KeysUnique(trs, CategoryTranslationKey) ==>
      forall t :: t in trs && CategoryTranslationKey(t) == (c.id, lang) ==> r.name == t.name
  {
    LookupFindsUnique(trs, CategoryTranslationKey, (c.id, lang));
    match LookupBy(trs, CategoryTranslationKey, (c.id, lang))
    case Some(t) => CategoryRow(c.id, t.name, c.displayOrder)
    case None => CategoryRow(c.id, c.name, c.displayOrder)
  }

  function CategoryResolver(trs: seq<CategoryTranslation>, lang: string): Category -> CategoryRow {
    c => ResolveCategory(c, trs, lang)
  }

  /** The category query: the restaurant's categories and no others, each
      once, translated, in `(display_order, id)` order. */
  function CategoriesOf(db: Database, rid: int, lang: string): (r: seq<CategoryRow>)
    ensures SortedBy(r, CategoryRowKey)
    ensures multiset(r) == multiset(Map(CategoryResolver(db.categoryTranslations, lang), Filter(OwnedCategory(rid), db.categories)))
    ensures forall i :: 0 <= i < |r| ==>
      exists c :: c in db.categories && c.restaurantId == rid && r[i] == ResolveCategory(c, db.categoryTranslations, lang)
    ensures forall c :: c in db.categories && c.restaurantId == rid ==> ResolveCategory(c, db.categoryTranslations, lang) in r
  {
    var f := CategoryResolver(db.categoryTranslations, lang);
    var base := SelectOrdered(db.categories, OwnedCategory(rid), CategoryKey);
    MapSorted(f, base, CategoryKey, CategoryRowKey);
    MapPermutation(f, base, Filter(OwnedCategory(rid), db.categories));
    CategoriesComplete(db, rid, lang, base);
    Map(f, base)
  }

  lemma CategoriesComplete(db: Database, rid: int, lang: string, base: seq<Category>)
    requires base == SelectOrdered(db.categories, OwnedCategory(rid), CategoryKey)
    ensures forall c :: c in db.categories && c.restaurantId == rid ==>
      ResolveCategory(c, db.categoryTranslations, lang) in Map(CategoryResolver(db.categoryTranslations, lang), base)
  {
    var r := Map(CategoryResolver(db.categoryTranslations, lang), base);
    forall c | c in db.categories && c.restaurantId == rid
      ensures ResolveCategory(c, db.categoryTranslations, lang) in r
    {
      var k :| 0 <= k < |db.categories| && db.categories[k] == c;
      assert OwnedCategory(rid)(db.categories[k]);
      var j :| 0 <= j < |base| && base[j] == c;
      assert r[j] == ResolveCategory(c, db.categoryTranslations, lang);
    }
  }

  // ---- subcategories ----

  /** `ORDER BY s.display_order ASC, s.id ASC`. */
  function SubcategoryKey(s: Subcategory): SortKey { NullFirstKey(s.displayOrder, s.id) }

  function SubcategoryRowKey(s: SubcategoryRow): SortKey { NullFirstKey(s.displayOrder, s.id) }

  function OwnedSubcategory(rid: int): Subcategory -> bool {
    (s: Subcategory) => s.restaurantId == rid
  }

  /** One subcategory row after `COALESCE(sct.name, s.name)`. */
  function ResolveSubcategory(s: Subcategory, trs: seq<SubcategoryTranslation>, lang: string): (r: SubcategoryRow)
    ensures r.id == s.id && r.categoryId == s.categoryId && r.displayOrder == s.displayOrder
    ensures (forall i :: 0 <= i < |trs| ==> SubcategoryTranslationKey(trs[i]) != (s.id, lang)) ==> r.name == s.name
    ensures KeysUnique(trs, SubcategoryTranslationKey) ==>
      forall t :: t in trs && SubcategoryTranslationKey(t) == (s.id, lang) ==> r.name == t.name
  {
    LookupFindsUnique(trs, SubcategoryTranslationKey, (s.id, lang));
    match LookupBy(trs, SubcategoryTranslationKey, (s.id, lang))
    case Some(t) => SubcategoryRow(s.id, s.categoryId, t.name, s.displayOrder)
    case None => SubcategoryRow(s.id, s.categoryId, s.name, s.displayOrder)
  }

  function SubcategoryResolver(trs: seq<SubcategoryTranslation>, lang: string): Subcategory -> SubcategoryRow {
    s => ResolveSubcategory(s, trs, lang)
  }

  /** The subcategory query, with the same guarantees as the category query. */
  function SubcategoriesOf(db: Database, rid: int, lang: string): (r: seq<SubcategoryRow>)
    ensures SortedBy(r, SubcategoryRowKey)
    ensures multiset(r) == multiset(Map(SubcategoryResolver(db.subcategoryTranslations, lang), Filter(OwnedSubcategory(rid), db.subcategories)))
    ensures forall i :: 0 <= i < |r| ==>
      exists s :: s in db.subcategories && s.restaurantId == rid && r[i] == ResolveSubcategory(s, db.subcategoryTranslations, lang)
    ensures forall s :: s in db.subcategories && s.restaurantId == rid ==> ResolveSubcategory(s, db.subcategoryTranslations, lang) in r
  {
    var f := SubcategoryResolver(db.subcategoryTranslations, lang);
    var base := SelectOrdered(db.subcategories, OwnedSubcategory(rid), SubcategoryKey);
    MapSorted(f, base, SubcategoryKey, SubcategoryRowKey);
    MapPermutation(f, base, Filter(OwnedSubcategory(rid), db.subcategories));
    SubcategoriesComplete(db, rid, lang, base);
    Map(f, base)
  }

  lemma SubcategoriesComplete(db: Database, rid: int, lang: string, base: seq<Subcategory>)
    requires base == SelectOrdered(db.subcategories, OwnedSubcategory(rid), SubcategoryKey)
    ensures forall s :: s in db.subcategories && s.restaurantId == rid ==>
      ResolveSubcategory(s, db.subcategoryTranslations, lang) in Map(SubcategoryResolver(db.subcategoryTranslations, lang), base)
  {
    var r := Map(SubcategoryResolver(db.subcategoryTranslations, lang), base);
    forall s | s in db.subcategories && s.restaurantId == rid
      ensures ResolveSubcategory(s, db.subcategoryTranslations, lang) in r
    {
      var k :| 0 <= k < |db.subcategories| && db.subcategories[k] == s;
      assert OwnedSubcategory(rid)(db.subcategories[k]);
      var j :| 0 <= j < |base| && base[j] == s;
      assert r[j] == ResolveSubcategory(s, db.subcategoryTranslations, lang);
    }
  }

  // ---- items ----

  /** `ORDER BY COALESCE(i.display_order, 0) ASC, i.id ASC`. */
  function ItemKey(i: MenuItem): SortKey {
    SortKey(0, Coalesce(i.displayOrder, 0), i.id)
  }

  function OwnedItem(rid: int): MenuItem -> bool {
    (i: MenuItem) => i.restaurantId == rid
  }

  /** One item row: `name` and `description` fall back to the base columns
      independently, `image_url` falls back to the legacy `image` column. */
  function ResolveItem(i: MenuItem, trs: seq<ItemTranslation>, lang: string): (r: ItemRow)
    ensures r.id == i.id && r.categoryId == i.categoryId && r.subcategoryId == i.subcategoryId
    ensures r.price == i.price && r.currency == i.currency && r.isNew == i.isNew
    ensures r.allergens == i.allergens && r.createdAt == i.createdAt
    ensures r.imageUrl == (if i.imageUrl.Some? then i.imageUrl else i.image)
    ensures (forall k :: 0 <= k < |trs| ==> ItemTranslationKey(trs[k]) != (i.id, lang)) ==>
      r.name == i.name && r.description == i.description
    ensures KeysUnique(trs, ItemTranslationKey) ==>
      forall t :: t in trs && ItemTranslationKey(t) == (i.id, lang) ==>
        r.name == t.name && r.description == (if t.description.Some? then t.description else i.description)
  {
    var texts := TranslatedTexts(i, trs, lang);
    ItemRow(i.id, i.categoryId, i.subcategoryId, texts.name, texts.description, i.price, i.currency,
            i.isNew, i.allergens, CoalesceOpt(i.imageUrl, i.image), i.createdAt)
  }

  function ItemResolver(trs: seq<ItemTranslation>, lang: string): MenuItem -> ItemRow {
    i => ResolveItem(i, trs, lang)
  }

  /** The item rows of the restaurant in query order, before projection. */
  function OrderedItems(db: Database, rid: int): (r: seq<MenuItem>)
    ensures SortedBy(r, ItemKey)
    ensures multiset(r) == multiset(Filter(OwnedItem(rid), db.items))
    ensures forall i :: 0 <= i < |r| ==> r[i] in db.items && r[i].restaurantId == rid
    ensures forall i :: i in db.items && i.restaurantId == rid ==> i in r
  {
    var r := SelectOrdered(db.items, OwnedItem(rid), ItemKey);
    forall i | i in db.items && i.restaurantId == rid
      ensures i in r
    {
      var k :| 0 <= k < |db.items| && db.items[k] == i;
      assert OwnedItem(rid)(db.items[k]);
    }
    r
  }

  /** The item query: the projected rows, position by position, of the
      ordered rows, and a permutation of the restaurant's rows projected. */
  function ItemsOf(db: Database, rid: int, lang: string): (r: seq<ItemRow>)
    ensures |r| == |OrderedItems(db, rid)|
    ensures forall k :: 0 <= k < |r| ==> r[k] == ResolveItem(OrderedItems(db, rid)[k], db.itemTranslations, lang)
    ensures multiset(r) == multiset(Map(ItemResolver(db.itemTranslations, lang), Filter(OwnedItem(rid), db.items)))
  {
    var f := ItemResolver(db.itemTranslations, lang);
    MapPermutation(f, OrderedItems(db, rid), Filter(OwnedItem(rid), db.items));
    Map(f, OrderedItems(db, rid))
  }

  /** A language none of the translation tables can hold (their column is
      an enum of the four menu languages) matches no translation row. */
  lemma NoTranslationRows(db: Database, id: int, lang: string)
    requires LanguagesEnumerated(db)
    requires !Supported(lang)
    ensures forall j :: 0 <= j < |db.categoryTranslations| ==> CategoryTranslationKey(db.categoryTranslations[j]) != (id, lang)
    ensures forall j :: 0 <= j < |db.subcategoryTranslations| ==> SubcategoryTranslationKey(db.subcategoryTranslations[j]) != (id, lang)
    ensures forall j :: 0 <= j < |db.itemTranslations| ==> ItemTranslationKey(db.itemTranslations[j]) != (id, lang)
  {
  }

  /** With such a language every category keeps its base name. */
  lemma UnsupportedLangCategoryNames(db: Database, rid: int, lang: string)
    requires LanguagesEnumerated(db)
    requires !Supported(lang)
    ensures forall k :: 0 <= k < |CategoriesOf(db, rid, lang)| ==>
      exists c :: c in db.categories && c.restaurantId == rid &&
        CategoriesOf(db, rid, lang)[k] == CategoryRow(c.id, c.name, c.displayOrder)
  {
    var cats := CategoriesOf(db, rid, lang);
    forall k | 0 <= k < |cats|
      ensures exists c :: c in db.categories && c.restaurantId == rid && cats[k] == CategoryRow(c.id, c.name, c.displayOrder)
    {
      var c :| c in db.categories && c.restaurantId == rid && cats[k] == ResolveCategory(c, db.categoryTranslations, lang);
      NoTranslationRows(db, c.id, lang);
    }
  }

  /** ... and every subcategory its base name. */
  lemma UnsupportedLangSubcategoryNames(db: Database, rid: int, lang: string)
    requires LanguagesEnumerated(db)
    requires !Supported(lang)
    ensures forall k :: 0 <= k < |SubcategoriesOf(db, rid, lang)| ==>
      exists s :: s in db.subcategories && s.restaurantId == rid &&
        SubcategoriesOf(db, rid, lang)[k] == SubcategoryRow(s.id, s.categoryId, s.name, s.displayOrder)
  {
    var subs := SubcategoriesOf(db, rid, lang);
    forall k | 0 <= k < |subs|
      ensures exists s :: s in db.subcategories && s.restaurantId == rid && subs[k] == SubcategoryRow(s.id, s.categoryId, s.name, s.displayOrder)
    {
      var s :| s in db.subcategories && s.restaurantId == rid && subs[k] == ResolveSubcategory(s, db.subcategoryTranslations, lang);
      NoTranslationRows(db, s.id, lang);
    }
  }

  /** ... and every item its base name and description. */
  lemma UnsupportedLangItemTexts(db: Database, rid: int, lang: string)
    requires LanguagesEnumerated(db)
    requires !Supported(lang)
    ensures forall k :: 0 <= k < |ItemsOf(db, rid, lang)| ==>
      ItemsOf(db, rid, lang)[k].name == OrderedItems(db, rid)[k].name &&
      ItemsOf(db, rid, lang)[k].description == OrderedItems(db, rid)[k].description
  {
    var items := ItemsOf(db, rid, lang);
    forall k | 0 <= k < |items|
      ensures items[k].name == OrderedItems(db, rid)[k].name && items[k].description == OrderedItems(db, rid)[k].description
    {
      NoTranslationRows(db, OrderedItems(db, rid)[k].id, lang);
    }
  }

  // ---- the handler ----

  /** The whole handler. Failures before the restaurant is known, and of the
      category and item queries, are server errors; a failing subcategory
      query degrades to an empty list. */
  function GetRestaurant(slug: string, langParam: Option<string>, db: Database, faults: Faults): (r: Response)
    ensures r.RestaurantNotFound? <==>
      faults.pool.None? && faults.restaurantQuery.None?
      && forall i :: 0 <= i < |db.restaurants| ==> db.restaurants[i].slug != slug
    ensures r.RestaurantNotFound? ==> r.slug == slug
    ensures r.ServerError? <==>
      faults.pool.Some? || faults.restaurantQuery.Some?
      || ((exists i :: 0 <= i < |db.restaurants| && db.restaurants[i].slug == slug)
          && (faults.categoryQuery.Some? || faults.itemQuery.Some?))
    ensures r.ServerError? && faults.pool.Some? ==> r.detail == faults.pool.value
    ensures r.ServerError? && faults.pool.None? && faults.restaurantQuery.Some? ==>
      r.detail == faults.restaurantQuery.value
    ensures r.ServerError? && faults.pool.None? && faults.restaurantQuery.None? && faults.categoryQuery.Some? ==>
      r.detail == faults.categoryQuery.value
    ensures r.ServerError? && faults.pool.None? && faults.restaurantQuery.None? && faults.categoryQuery.None? ==>
      faults.itemQuery.Some? && r.detail == faults.itemQuery.value
    ensures r.Found? ==> r.doc.restaurant in db.restaurants && r.doc.restaurant.slug == slug
    ensures r.Found? ==>
      var lang := RequestLang(langParam);
      var rid := r.doc.restaurant.id;
      && r.doc.categories == CategoriesOf(db, rid, lang)
      && r.doc.items == ItemsOf(db, rid, lang)
      && r.doc.subcategories == (if faults.subcategoryQuery.Some? then [] else SubcategoriesOf(db, rid, lang))
  {
    var lang := RequestLang(langParam);
    if faults.pool.Some? then ServerError(faults.pool.value)
    else if faults.restaurantQuery.Some? then ServerError(faults.restaurantQuery.value)
    else
      match LookupBy(db.restaurants, RestaurantSlug, slug)
      case None => RestaurantNotFound(slug)
      case Some(restaurant) =>
        if faults.categoryQuery.Some? then ServerError(faults.categoryQuery.value)
        else
          var subcategories := if faults.subcategoryQuery.Some? then [] else SubcategoriesOf(db, restaurant.id, lang);
          if faults.itemQuery.Some? then ServerError(faults.itemQuery.value)
          else Found(MenuDocument(restaurant, CategoriesOf(db, restaurant.id, lang), subcategories, ItemsOf(db, restaurant.id, lang)))
  }

  // ---- the connection as config/db.js provides it ----

  /** `String(err)` for the TypeError `await getPool()` raises: config/db.js
      exports a single connection object, which has no `getPool`. */
  const GetPoolMissing: string := "TypeError: getPool is not a function"

  /** The handler with the module wiring as written: every request fails
      before the restaurant is looked up. */
  function GetRestaurantAsWired(slug: string, langParam: Option<string>, db: Database): (r: Response)
    ensures r.ServerError?
  {
    GetRestaurant(slug, langParam, db, Faults(Some(GetPoolMissing), None, None, None, None))
  }

  /** As wired, even a slug that is in the table answers 500 `server_error`. */
  lemma AsWiredNeverServes(slug: string, langParam: Option<string>, db: Database)
    ensures GetRestaurantAsWired(slug, langParam, db).Status() == 500
    ensures GetRestaurantAsWired(slug, langParam, db).ErrorCode() == Some("server_error")
    ensures GetRestaurantAsWired(slug, langParam, db).detail == GetPoolMissing
  {
  }

  /** With a working connection and no failing query, a known slug is served
      and an unknown one answers 404. */
  lemma ConnectedHandlerServesKnownSlugs(slug: string, langParam: Option<string>, db: Database)
    ensures var r := GetRestaurant(slug, langParam, db, Faults(None, None, None, None, None));
      && ((exists i :: 0 <= i < |db.restaurants| && db.restaurants[i].slug == slug) ==>
            r.Found? && r.Status() == 200 && r.doc.restaurant.slug == slug)
      && ((forall i :: 0 <= i < |db.restaurants| ==> db.restaurants[i].slug != slug) ==>
            r.RestaurantNotFound? && r.Status() == 404)
  {
  }
}

=== FILE: schema.dfy ===
/** The relational tables the handlers read and write, one record per row.
    Nullable columns are `Option`s. Every table is a `seq` in storage order,
    which is the order MySQL returns rows in when a query has no `ORDER BY`. */
module Schema {
  import opened Common
  import opened Seqs

  /** `restaurants`: the tenant, found by its slug. */
  datatype Restaurant = Restaurant(
    id: int,
    name: string,
    slug: string,
    logoUrl: Option<string>,
    aboutText: Option<string>,
    phone: Option<string>,
    address: Option<string>,
    instagramUrl: Option<string>,
    facebookUrl: Option<string>,
    websiteUrl: Option<string>,
    openingHours: Option<string>)

  /** `menu_categories`; `display_order` is `INT NULL DEFAULT 0`. */
  datatype Category = Category(id: int, restaurantId: int, name: string, displayOrder: Option<int>)

  /** `menu_category_translations`, unique on (category_id, language_code). */
  datatype CategoryTranslation = CategoryTranslation(categoryId: int, languageCode: string, name: string)

  /** `menu_subcategories`. */
  datatype Subcategory = Subcategory(
    id: int, restaurantId: int, categoryId: int, name: string, displayOrder: Option<int>)

  /** `menu_subcategory_translations`, unique on (subcategory_id, language_code). */
  datatype SubcategoryTranslation = SubcategoryTranslation(subcategoryId: int, languageCode: string, name: string)

  /** A time-of-day column value or clock reading, in seconds after midnight. */
  type TimeOfDay = t: int | 0 <= t < 86400

  /** `menu_items`, with every column some handler reads. The handlers were
      written against diverging schemas: `sub_category_id` is read only by
      the customer endpoint, `available_from`/`available_to`,
      `photo_url` and `tags` only by the item listing. */
  datatype MenuItem = MenuItem(
    id: int,
    restaurantId: int,
    categoryId: int,
    subcategoryId: Option<int>,
    subCategoryIdLegacy: Option<int>,
    name: string,
    description: Option<string>,
    price: Option<string>,
    currency: Option<string>,
    isNew: Option<int>,
    allergens: Option<string>,
    imageUrl: Option<string>,
    image: Option<string>,
    displayOrder: Option<int>,
    createdAt: Option<string>,
    availableFrom: Option<TimeOfDay>,
    availableTo: Option<TimeOfDay>,
    photoUrl: Option<string>,
    tags: Option<string>)

  /** `menu_item_translations` as the migration creates it: unique on
      (menu_item_id, language_code), `name` NOT NULL, `description` NULL. */
  datatype ItemTranslation = ItemTranslation(
    menuItemId: int, languageCode: string, name: string, description: Option<string>)

  /** `menu_item_translations` as the customer endpoint reads it, with the
      columns `original_item_id`, `translated_name`, `translated_description`. */
  datatype LegacyItemTranslation = LegacyItemTranslation(
    originalItemId: int, languageCode: string,
    translatedName: Option<string>, translatedDescription: Option<string>)

  /** A row of the `categories` or `sub_categories` table the customer
      endpoint joins against. */
  datatype NamedRow = NamedRow(id: int, name: Option<string>)

  datatype Database = Database(
    restaurants: seq<Restaurant>,
    categories: seq<Category>,
    categoryTranslations: seq<CategoryTranslation>,
    subcategories: seq<Subcategory>,
    subcategoryTranslations: seq<SubcategoryTranslation>,
    items: seq<MenuItem>,
    itemTranslations: seq<ItemTranslation>,
    legacyItemTranslations: seq<LegacyItemTranslation>,
    legacyCategories: seq<NamedRow>,
    legacySubcategories: seq<NamedRow>)

  function CategoryTranslationKey(t: CategoryTranslation): (int, string) {
    (t.categoryId, t.languageCode)
  }

  function SubcategoryTranslationKey(t: SubcategoryTranslation): (int, string) {
    (t.subcategoryId, t.languageCode)
  }

  function ItemTranslationKey(t: ItemTranslation): (int, string) {
    (t.menuItemId, t.languageCode)
  }

  /** An item's name and description in one language. */
  datatype Texts = Texts(name: string, description: Option<string>)

  /** `COALESCE(t.name, i.name)` and `COALESCE(t.description, i.description)`
      over `LEFT JOIN menu_item_translations t ON t.menu_item_id = i.id AND
      t.language_code = lang`: the base texts without a translation row, the
      row's name and, field by field, its description when there is one. */
  function TranslatedTexts(i: MenuItem, trs: seq<ItemTranslation>, lang: string): (r: Texts)
    ensures (forall k :: 0 <= k < |trs| ==> ItemTranslationKey(trs[k]) != (i.id, lang)) ==>
      r == Texts(i.name, i.description)
    ensures KeysUnique(trs, ItemTranslationKey) ==>
      forall t :: t in trs && ItemTranslationKey(t) == (i.id, lang) ==>
        r.name == t.name && r.description == (if t.description.Some? then t.description else i.description)
  {
    LookupFindsUnique(trs, ItemTranslationKey, (i.id, lang));
    match LookupBy(trs, ItemTranslationKey, (i.id, lang))
    case Some(t) => Texts(t.name, CoalesceOpt(t.description, i.description))
    case None => Texts(i.name, i.description)
  }

  function CategoryId(c: Category): int { c.id }
  function SubcategoryId(s: Subcategory): int { s.id }
  function ItemId(i: MenuItem): int { i.id }

  /** The `ENUM('tr','en','es','fr')` column type of every translation table. */
  predicate LanguagesEnumerated(db: Database) {
    && (forall i :: 0 <= i < |db.categoryTranslations| ==> Supported(db.categoryTranslations[i].languageCode))
    && (forall i :: 0 <= i < |db.subcategoryTranslations| ==> Supported(db.subcategoryTranslations[i].languageCode))
    && (forall i :: 0 <= i < |db.itemTranslations| ==> Supported(db.itemTranslations[i].languageCode))
  }
}

=== FILE: seqs.dfy ===
/** Sequence combinators standing in for SQL `WHERE`, projection and
    `LIMIT 1`, with the facts about them the query models need. */
module Seqs {
  import opened Common

  function Map<A, B>(f: A -> B, s: seq<A>): (r: seq<B>)
    ensures |r| == |s|
    ensures forall i :: 0 <= i < |s| ==> r[i] == f(s[i])
  {
    if s == [] then [] else [f(s[0])] + Map(f, s[1..])
  }

  /** The elements of `s` satisfying `p`, in their original order. */
  function Filter<T>(p: T -> bool, s: seq<T>): (r: seq<T>)
    ensures |r| <= |s|
    ensures forall i :: 0 <= i < |r| ==> r[i] in s && p(r[i])
    ensures forall i :: 0 <= i < |s| && p(s[i]) ==> s[i] in r
  {
    if s == [] then []
    else if p(s[0]) then [s[0]] + Filter(p, s[1..])
    else Filter(p, s[1..])
  }

  /** `... WHERE key = k LIMIT 1` without `ORDER BY`, and the row a
      `LEFT JOIN ... ON key = k` pairs with: the first match in table order. */
  function LookupBy<T, K(==)>(s: seq<T>, key: T -> K, k: K): (r: Option<T>)
    ensures r.Some? ==> r.value in s && key(r.value) == k
    ensures r.None? <==> forall i :: 0 <= i < |s| ==> key(s[i]) != k
  {
    if s == [] then None
    else if key(s[0]) == k then Some(s[0])
    else LookupBy(s[1..], key, k)
  }

  /** No two rows of `s` share a `key`: a primary or unique key. */
  predicate KeysUnique<T, K(==)>(s: seq<T>, key: T -> K) {
    forall i, j :: 0 <= i < j < |s| ==> key(s[i]) != key(s[j])
  }

  lemma KeysUniqueTail<T, K>(s: seq<T>, key: T -> K)
    requires s != [] && KeysUnique(s, key)
    ensures KeysUnique(s[1..], key)
  {
    forall i, j | 0 <= i < j < |s[1..]|
      ensures key(s[1..][i]) != key(s[1..][j])
    {
      assert s[1..][i] == s[i + 1] && s[1..][j] == s[j + 1];
    }
  }

  /** Under a unique key, the row found for a key is the only row with it. */
  lemma {:induction false} LookupUnique<T, K>(s: seq<T>, key: T -> K, x: T)
    requires KeysUnique(s, key)
    requires x in s
    ensures LookupBy(s, key, key(x)) == Some(x)
    decreases |s|
  {
    var j :| 0 <= j < |s| && s[j] == x;
    if j != 0 {
      assert key(s[0]) != key(x);
      KeysUniqueTail(s, key);
      assert s[1..][j - 1] == x;
      LookupUnique(s[1..], key, x);
    }
  }

  /** Under a unique key, the lookup of a key finds the one row that has it. */
  lemma LookupFindsUnique<T, K>(s: seq<T>, key: T -> K, k: K)
    ensures KeysUnique(s, key) ==>
      forall x :: x in s && key(x) == k ==> LookupBy(s, key, k) == Some(x)
  {
    if KeysUnique(s, key) {
      forall x | x in s && key(x) == k
        ensures LookupBy(s, key, k) == Some(x)
      {
        LookupUnique(s, key, x);
      }
    }
  }

  /** `t` without its first copy of `x`. */
  function RemoveOne<T(==)>(t: seq<T>, x: T): seq<T> {
    if t == [] then []
    else if t[0] == x then t[1..]
    else [t[0]] + RemoveOne(t[1..], x)
  }

  /** Removing one copy of an element of `t` removes one copy from its
      multiset. */
  lemma {:induction false} RemoveOneCount<T>(t: seq<T>, x: T)
    requires x in t
    ensures multiset(t) == multiset(RemoveOne(t, x)) + multiset{x}
    decreases |t|
  {
    assert t == [t[0]] + t[1..];
    if t[0] != x {
      RemoveOneCount(t[1..], x);
    }
  }

  /** ... and one copy of its projection from the projection's multiset. */
  lemma {:induction false} RemoveOneMapCount<A, B>(f: A -> B, t: seq<A>, x: A)
    requires x in t
    ensures multiset(Map(f, t)) == multiset(Map(f, RemoveOne(t, x))) + multiset{f(x)}
    decreases |t|
  {
    var m := Map(f, t);
    assert m == [f(t[0])] + Map(f, t[1..]);
    if t[0] != x {
      var rest := RemoveOne(t[1..], x);
      RemoveOneMapCount(f, t[1..], x);
      var r := [t[0]] + rest;
      assert r[0] == t[0] && r[1..] == rest;
      assert Map(f, r) == [f(t[0])] + Map(f, rest);
    }
  }

  lemma MultisetCancel<T>(a: multiset<T>, b: multiset<T>, x: T)
    requires a + multiset{x} == b + multiset{x}
    ensures a == b
  {
    forall y
      ensures a[y] == b[y]
    {
      assert (a + multiset{x})[y] == (b + multiset{x})[y];
    }
  }

  /** Projecting two permutations of each other gives two permutations of
      each other: the `SELECT` list commutes with `ORDER BY`. */
  lemma {:induction false} MapPermutation<A, B>(f: A -> B, s: seq<A>, t: seq<A>)
    requires multiset(s) == multiset(t)
    ensures multiset(Map(f, s)) == multiset(Map(f, t))
    decreases |s|
  {
    if s == [] {
      assert |t| == |multiset(t)| == 0;
    } else {
      var x := s[0];
      var t' := RemoveOne(t, x);
      assert s == [x] + s[1..];
      assert multiset(s) == multiset(s[1..]) + multiset{x};
      assert x in multiset(t);
      RemoveOneCount(t, x);
      MultisetCancel(multiset(s[1..]), multiset(t'), x);
      MapPermutation(f, s[1..], t');
      RemoveOneMapCount(f, t, x);
      assert Map(f, s) == [f(x)] + Map(f, s[1..]);
      assert multiset(Map(f, s)) == multiset(Map(f, s[1..])) + multiset{f(x)};
    }
  }

  lemma {:induction false} FilterSubMultiset<T>(p: T -> bool, s: seq<T>)
    ensures multiset(Filter(p, s)) <= multiset(s)
    decreases |s|
  {
    if s != [] {
      FilterSubMultiset(p, s[1..]);
      assert s == [s[0]] + s[1..];
    }
  }

  /** A value at two positions is counted at least twice. */
  lemma CountTwice<T>(s: seq<T>, i: int, j: int)
    requires 0 <= i < j < |s| && s[i] == s[j]
    ensures multiset(s)[s[i]] >= 2
  {
    assert s == s[..j] + [s[j]] + s[j + 1..];
    assert s[..j][i] == s[i];
    assert multiset(s[..j])[s[i]] >= 1;
  }

  /** Under a unique key no row occurs twice. */
  lemma {:induction false} CountOnce<T, K>(s: seq<T>, key: T -> K, x: T)
    requires KeysUnique(s, key)
    ensures multiset(s)[x] <= 1
    decreases |s|
  {
    if s != [] {
      KeysUniqueTail(s, key);
      CountOnce(s[1..], key, x);
      assert s == [s[0]] + s[1..];
    }
  }

  /** Rows drawn without repetition from a table with a unique key have
      unique keys too, whatever their order. */
  lemma KeysUniqueSubMultiset<T, K>(s: seq<T>, t: seq<T>, key: T -> K)
    requires KeysUnique(t, key)
    requires multiset(s) <= multiset(t)
    ensures KeysUnique(s, key)
  {
    forall i, j | 0 <= i < j < |s|
      ensures key(s[i]) != key(s[j])
    {
      assert s[i] in multiset(s) && s[j] in multiset(s);
      var a :| 0 <= a < |t| && t[a] == s[i];
      var b :| 0 <= b < |t| && t[b] == s[j];
      if s[i] == s[j] {
        CountTwice(s, i, j);
        CountOnce(t, key, s[i]);
      } else {
        assert a != b;
      }
    }
  }
}

=== FILE: sorting.dfy ===
/** `ORDER BY` over a composite key, as a functional insertion sort whose
    result is proved sorted and a permutation of its input. */
module Sorting {
  import opened Common
  import opened Seqs

  /** A lexicographic sort key. `rank` orders NULLs before values (MySQL
      sorts NULL first in ascending order), `order` is the ordering column
      and `id` the tie breaker. */
  datatype SortKey = SortKey(rank: int, order: int, id: int)

  /** `ORDER BY order ASC, id ASC` over a nullable `order` column. */
  function NullFirstKey(order: Option<int>, id: int): SortKey {
    match order
    case None => SortKey(0, 0, id)
    case Some(d) => SortKey(1, d, id)
  }

  predicate KeyLe(a: SortKey, b: SortKey) {
    a.rank < b.rank
    || (a.rank == b.rank && (a.order < b.order || (a.order == b.order && a.id <= b.id)))
  }

  /** MySQL's ascending order on a nullable column: every NULL comes before
      every value, values compare numerically, and the id breaks ties. */
  lemma NullsSortFirst(a: Option<int>, ia: int, b: Option<int>, ib: int)
    ensures a.None? && b.Some? ==>
      KeyLe(NullFirstKey(a, ia), NullFirstKey(b, ib)) && !KeyLe(NullFirstKey(b, ib), NullFirstKey(a, ia))
    ensures a.None? && b.None? ==> (KeyLe(NullFirstKey(a, ia), NullFirstKey(b, ib)) <==> ia <= ib)
    ensures a.Some? && b.Some? ==>
      (KeyLe(NullFirstKey(a, ia), NullFirstKey(b, ib)) <==> a.value < b.value || (a.value == b.value && ia <= ib))
  {
  }

  predicate SortedBy<T>(s: seq<T>, key: T -> SortKey) {
    forall i, j :: 0 <= i < j < |s| ==> KeyLe(key(s[i]), key(s[j]))
  }

  /** `x` placed before the first row of `s` whose key is not below it. */
  function Insert<T>(x: T, s: seq<T>, key: T -> SortKey): (r: seq<T>)
    ensures multiset(r) == multiset(s) + multiset{x}
    ensures |r| == |s| + 1
  {
    if s == [] then [x]
    else if KeyLe(key(x), key(s[0])) then [x] + s
    else
      assert s == [s[0]] + s[1..];
      [s[0]] + Insert(x, s[1..], key)
  }

  /** Every row of an insertion is the inserted row or a row of `s`. */
  lemma InsertMembers<T>(x: T, s: seq<T>, key: T -> SortKey, y: T)
    requires y in Insert(x, s, key)
    ensures y == x || y in s
  {
    assert y in multiset(Insert(x, s, key));
  }

  /** A row below every row of a sorted `s` may go in front of it. */
  lemma ConsSorted<T>(y: T, s: seq<T>, key: T -> SortKey)
    requires SortedBy(s, key)
    requires forall z :: z in s ==> KeyLe(key(y), key(z))
    ensures SortedBy([y] + s, key)
  {
    var r := [y] + s;
    forall i, j | 0 <= i < j < |r|
      ensures KeyLe(key(r[i]), key(r[j]))
    {
      assert r[j] == s[j - 1];
      if i == 0 {
        assert s[j - 1] in s;
      } else {
        assert r[i] == s[i - 1];
      }
    }
  }

  lemma {:induction false} InsertSorted<T>(x: T, s: seq<T>, key: T -> SortKey)
    requires SortedBy(s, key)
    ensures SortedBy(Insert(x, s, key), key)
    decreases |s|
  {
    if s == [] {
    } else if KeyLe(key(x), key(s[0])) {
      forall z | z in s
        ensures KeyLe(key(x), key(z))
      {
        var j :| 0 <= j < |s| && s[j] == z;
        if j > 0 { assert KeyLe(key(s[0]), key(s[j])); }
      }
      ConsSorted(x, s, key);
    } else {
      var rest := Insert(x, s[1..], key);
      InsertSorted(x, s[1..], key);
      forall y | y in rest
        ensures KeyLe(key(s[0]), key(y))
      {
        InsertMembers(x, s[1..], key, y);
        if y != x {
          var j :| 0 <= j < |s[1..]| && s[1..][j] == y;
          assert s[j + 1] == y;
        }
      }
      ConsSorted(s[0], rest, key);
    }
  }

  /** The rows of `s` in ascending `key` order. */
  function SortBy<T>(s: seq<T>, key: T -> SortKey): (r: seq<T>)
    ensures SortedBy(r, key)
    ensures multiset(r) == multiset(s)
    ensures |r| == |s|
  {
    if s == [] then []
    else
      assert s == [s[0]] + s[1..];
      var rest := SortBy(s[1..], key);
      InsertSorted(s[0], rest, key);
      Insert(s[0], rest, key)
  }

  /** `SELECT ... WHERE cond ORDER BY key`: exactly the rows satisfying
      `cond`, each as often as in the table, in ascending key order. */
  function SelectOrdered<T>(rows: seq<T>, cond: T -> bool, key: T -> SortKey): (r: seq<T>)
    ensures SortedBy(r, key)
    ensures multiset(r) == multiset(Filter(cond, rows))
    ensures forall i :: 0 <= i < |r| ==> r[i] in rows && cond(r[i])
    ensures forall i :: 0 <= i < |rows| && cond(rows[i]) ==> rows[i] in r
  {
    var f := Filter(cond, rows);
    var r := SortBy(f, key);
    assert forall i :: 0 <= i < |r| ==> r[i] in f by {
      forall i | 0 <= i < |r| ensures r[i] in f {
        assert r[i] in multiset(r);
      }
    }
    assert forall x :: x in f ==> x in r by {
      forall x | x in f ensures x in r {
        assert x in multiset(f);
      }
    }
    r
  }

  /** Projecting rows onto records that carry the same key keeps them sorted. */
  lemma MapSorted<A, B>(f: A -> B, s: seq<A>, ka: A -> SortKey, kb: B -> SortKey)
    requires SortedBy(s, ka)
    requires forall i :: 0 <= i < |s| ==> kb(f(s[i])) == ka(s[i])
    ensures SortedBy(Map(f, s), kb)
  {
  }
}
